=== FILE: README.md ===
# resize_and_grid in Dafny

A model of the two PDF reformatting scripts of `resize_and_grid`, stated as
pure functions over page sizes, with the layout and parsing facts the scripts
rely on proved.

- `rs04.py` is the two-column splitter. Each source page of width `w` and
  height `h` becomes a `2w × h` page. An optional full-width header band
  comes first. Then the left column `[0, divide)` is drawn in place. Then the
  right column `[divide, w)` is drawn shifted right by `w − divide`. Last come
  ruled lines every `grid_width` points in the blank margin after each column.
  Its command line is read strictly left to right: `--divide=`,
  `--grid_width=`, `--clip=page:height[,...]`, `--output=`, `--help`.
- `rs02.py` is the height-fix script. Each page becomes `(w + margin) × 842`,
  with the original drawn unscaled at the top-left corner.

The rendering library is not modelled. Opening a document becomes a `Document`
parameter (`Missing`, `Unreadable`, or the page sizes in order). Every
drawing call becomes an entry in the returned plan: a `CopyOp` (source page,
clip rectangle, destination rectangle), a `Placement`, or a `Segment`.
Coordinates are `real`. Python's `int(new_height)` is `PyInt.Trunc`, which
truncates toward zero. Exit statuses come from `Cli.ExitStatus` applied to an
`Outcome`.

Modules:

| file | module | models |
|---|---|---|
| wrappers.dfy | `Wrappers` | `Option`, `Result` |
| strings.dfy | `Strings` | `startswith`, `endswith`, `split`, `join`, `replace` |
| pyint.dfy | `PyInt` | `int()` of a string and of a float, `str()` of an int |
| pyrange.dfy | `PyRange` | `range(start, stop, step)` |
| geometry.dfy | `Geometry` | points, rectangles, page sizes, segments, copy operations |
| cli.dfy | `Cli` | error kinds, outcomes, exit status |
| two_column.dfy | `TwoColumn` | `rs04.py` `process` |
| two_column_cli.dfy | `TwoColumnCli` | `rs04.py` argument handling and run |
| margin_fix.dfy | `MarginFix` | `rs02.py` |

Facts about the code that the model keeps:

- The number of ruled lines per band is the length of
  `range(c, int(h), g)`. For `g > 0` that is `ceil((int(h) − c) / g)`: a
  page 842 high with spacing 20 gets 43 lines, at 0, 20, …, 840.
- `range` with a negative spacing counts down from `c` while above
  `int(h)`. So the planned grid is empty when `c ≤ int(h)`, and not empty when
  `c > int(h)` (`NegativeStepAboveBottom`). That second case is a fact about
  the plan only. With `c > int(h)` the left-column rectangle
  `(0, c, divide, h)` is inverted, and the rendering library rejects it before
  any line is drawn (see "Left out").
- `--help` is recognised anywhere after the input path (any argument starting
  with `--help`), not only as the first argument. The scan stops at the first
  help flag or error, so an earlier bad flag still wins.
- A bad number in `--divide=`, `--grid_width=` or `--clip=` raises outside the
  `try` block. It is an uncaught `ValueError` (`MalformedValue`) with exit
  status 1, not the generic failure message.
- `int()` is modelled as Python accepts it: surrounding ASCII whitespace, an
  optional sign, and digits with single underscores between digits. So
  `--clip=1: 100`, the form the help text shows, parses when it reaches the
  script as one argument (quoted in a shell). The length limit on digit
  strings is not modelled (see "Left out").

## Model

| member | source | states |
|---|---|---|
| TwoColumn.Process | rs04.py:43-95 | one destination page per source page, in source order, each sized (2w, h) and drawing only from its own source page; fails exactly when the spacing is 0 and there is a page to rule |
| TwoColumn.PlanPage | rs04.py:44-95 | one destination page of size (2w, h); a header copy only when page pno + 1 has an entry; every copy draws from source page pno; both bands get as many lines as range(c, int(h), g) yields |
| TwoColumn.ColumnsStartAtOneBasedEntry | rs04.py:55-59 | the 0-based page pno takes its header height from entry pno + 1: both columns and the first line start there, or at 0 without an entry |
| TwoColumn.HeaderCopyIffEntry | rs04.py:55-67 | a header copy with clip = dest = (0, 0, w, entry) is emitted exactly when page i+1 has an entry; the two column copies always follow |
| TwoColumn.LeftColumnIsIdentity | rs04.py:73-78 | the left column copy has clip = dest = (0, c, divide, h), so every point keeps its place |
| TwoColumn.RightColumnIsShift | rs04.py:80-85 | the right column copy maps (divide, c, w, h) to (w, c, 2w − divide, h): same width and height, a horizontal shift by w − divide |
| TwoColumn.RulesLayout | rs04.py:88-95 | both bands use the same rows c + k·g, as many as range yields; left lines run from divide + 10 to w − 10, right lines from 2w − divide + 10 to 2w − 10 |
| TwoColumn.RuleRowsExactly | rs04.py:90-91 | with g > 0 a line is drawn at y exactly when c ≤ y < int(h) and y − c is a multiple of g |
| TwoColumn.NegativeStepBelowBottom | rs04.py:90-95 | with g < 0 and c ≤ int(h) no line is drawn in either band |
| TwoColumn.NegativeStepAboveBottom | rs04.py:90-91 | with g < 0 and c > int(h) the plan holds lines, counting down from c (the library stops such a run first, see Left out) |
| TwoColumn.RulesStayInMargins | rs04.py:73-95 | each left line runs from divide + 10 to w − 10 and each right line from 2w − divide + 10 to 2w − 10; a left line runs forwards (from x ≤ to x) exactly when divide + 20 ≤ w, a right line exactly when 20 ≤ divide; when both hold, every line lies strictly inside its blank band: left lines between the left column's right edge and the right column's left edge, right lines between the right column's right edge and the page edge |
| TwoColumn.CopiesAgreeWithRelocate | rs04.py:55-85 | each copy is unscaled and puts each point it copies where the intended relocation does: header and left column stay, the right column moves right by w − divide |
| TwoColumn.CopiesTileSourcePage | rs04.py:55-85 | with 0 ≤ divide ≤ w and 0 ≤ c ≤ h every point of the source page is in exactly one copy's clip |
| TwoColumn.DestinationsDisjoint | rs04.py:53-85 | under the same bounds the destination rectangles lie on the 2w × h page and do not overlap |
| TwoColumn.A4PageScenario | rs04.py:26-85 | a 595 × 842 page with the default split becomes 1190 × 842 with left [0, 297) and right [595, 893) |
| TwoColumn.FirstPageHeaderScenario | rs04.py:55-85 | with entry 1:100 on two pages, only page 1 gets a 100-high header and columns from y = 100; page 2 columns start at 0 |
| PyRange.RangeShape | rs04.py:90 | range(start, stop, step) has CPython's closed-form length and its k-th value is start + k·step |
| PyRange.Range | rs04.py:90 | every value range yields lies in [start, stop) for a positive step and in (stop, start] for a negative one |
| PyRange.RangeMembership | rs04.py:90 | with a positive step a value is yielded exactly when it lies in [start, stop) a whole number of steps past start |
| PyRange.EmptyWhenNotAbove | rs04.py:90 | with a negative step and start ≤ stop the range is empty |
| PyInt.Trunc | rs04.py:90 | int() of a float truncates toward zero |
| PyInt.ParseInt | rs04.py:143 | int() of a string without any digit fails (the accepted forms are the lemmas below) |
| PyInt.ParseIntGrammar | rs04.py:143 | int() of a string succeeds exactly when the string is blanks, an optional sign, a digit string, blanks; then it yields that literal's value (negated for a minus sign) |
| PyInt.DigitStringUnderscores | rs04.py:143 | a digit string is exactly a text of digits and underscores that starts and ends with a digit and has no two underscores in a row |
| PyInt.ParseRejectsForeignCharacter | rs04.py:143 | a string holding any character other than a digit, a blank, a sign or an underscore is rejected, so "1.5" and "1a2" fail |
| PyInt.ParseRejectsLooseUnderscore | rs04.py:143 | an underscore not followed by a digit is rejected, so "1_" and "1__0" fail |
| PyInt.ParseLeadingZeros | rs04.py:143 | leading zeros are accepted and ignored: int("007") == 7 |
| PyInt.ParseFormat | rs04.py:166 | int(str(n)) == n for every integer |
| PyInt.ParseIgnoresLeadingSpace | rs04.py:164-166 | leading whitespace does not change what int() returns, so "1: 100" yields 100 |
| PyInt.ParseIgnoresTrailingSpace | rs04.py:143 | trailing whitespace does not change what int() returns |
| PyInt.ParseIgnoresSurroundingSpace | rs04.py:143 | int(pre + s + post) == int(s) for blank pre and post |
| PyInt.ParseSignedDigits | rs04.py:143 | an explicit + or - before the digits of n is accepted and gives n or −n |
| PyInt.ParseIgnoresUnderscore | rs04.py:143 | one underscore between two runs of digits is accepted and ignored |
| Strings.Split | rs04.py:156 | split yields at least one piece, at least two exactly when the separator occurs, no piece holds the separator, and the first piece is the text before the first separator |
| Strings.JoinSplit | rs04.py:156 | joining the pieces of a split with the separator gives the string back |
| Strings.SplitJoin | rs04.py:156 | splitting a join of separator-free pieces gives the pieces back |
| Strings.SplitInTwo | rs04.py:164 | split yields exactly two pieces exactly when the separator occurs once, and they are the text before and after it |
| Strings.ReplaceAll | rs04.py:131 | replacing by a text at least as long never shortens the string (the full meaning is ReplaceAllFirst with ReplaceAllAbsent) |
| Strings.ReplaceAllAbsent | rs04.py:131 | a path without ".pdf" is left unchanged by the replacement |
| Strings.ReplaceAllFirst | rs04.py:131 | the first occurrence is replaced, the text before it is kept, and the scan goes on right after it, so every non-overlapping occurrence is replaced |
| TwoColumnCli.FlagValue | rs04.py:143 | a flag's value, arg.split("=")[1], never contains "=" |
| TwoColumnCli.FlagValueFollowsFlag | rs04.py:143 | for each flag the value is the text right after "--flag=" up to the next "=" or the end |
| TwoColumnCli.HelpExcludesOtherFlags | rs04.py:142-171 | an argument starting with --help matches none of the value flags, so the order of the tests does not matter for it |
| TwoColumnCli.ParseClipEntryMeaning | rs04.py:164-166 | a page:height token is accepted exactly when it holds one colon with an int()-readable text on each side, and then the page and height are the values of those two texts |
| TwoColumnCli.ParseClipEntries | rs04.py:161-166 | reading tokens only adds or updates entries, never drops a page already mapped |
| TwoColumnCli.ParseClipValue | rs04.py:149-166 | a --clip value fails exactly when one of its comma-separated tokens is malformed, and an accepted value keeps every page already mapped |
| TwoColumnCli.Step | rs04.py:142-175 | one argument gives help exactly when it starts with --help, keeps the input path, and any error names that argument |
| TwoColumnCli.ParseOptions | rs04.py:140-175 | the input path is kept; a scan that does not go on stops at some argument k: every argument before k was accepted, and the result is what argument k alone gives from the options reached, so help means args[k] starts with --help and an error names args[k] as unknown or malformed |
| TwoColumnCli.ParseCommandLine | rs04.py:119-136 | a usage error exactly when no input path is given; help when argv[1] is --help; a non-.pdf input is rejected; otherwise the options are the scan of argv[2..] from the defaults for argv[1] |
| TwoColumnCli.ParseCommandLineAsWritten | rs04.py:119-123 | the script as written never reaches its usage message |
| TwoColumnCli.Run | rs04.py:119-200 | help exactly when the command line asks for it; a rejected command line fails with its error; a missing file gives FileNotFound; an unreadable file or a failing process gives ProcessingFailed; a saved document is at the parsed output path and its pages are the plan that process makes with the parsed divide, spacing and clip entries, and that plan is saved whenever it exists |
| TwoColumnCli.ParseOptionsAppend | rs04.py:140-141 | scanning a + b is scanning a, then scanning b from the options reached; b is never seen once a ends the scan |
| TwoColumnCli.FlagValueOfText | rs04.py:143 | the text after a flag such as --divide=, when it has no further '=', is exactly the value the script reads |
| TwoColumnCli.LaterDivideWins | rs04.py:142-143 | a later --divide= overrides every earlier value |
| TwoColumnCli.LaterGridWidthWins | rs04.py:144-145 | a later --grid_width= overrides every earlier value |
| TwoColumnCli.LaterOutputWins | rs04.py:167-168 | a later --output= overrides earlier values and the default |
| TwoColumnCli.ClipFlagsAccumulate | rs04.py:146-166 | each --clip= merges into the mapping built so far, across repeated flags |
| TwoColumnCli.HelpStopsParsing | rs04.py:171-172 | an argument starting with --help ends the scan with help, whatever follows |
| TwoColumnCli.UnknownOptionStops | rs04.py:173-175 | an argument matching no flag ends the scan with an error naming it |
| TwoColumnCli.StopsAt | rs04.py:140-175 | an argument that does not let the scan go on ends it there, whatever follows |
| TwoColumnCli.BadDivideStops | rs04.py:142-143 | a --divide= value int() rejects ends the scan with an error naming that argument |
| TwoColumnCli.BadGridWidthStops | rs04.py:144-145 | a --grid_width= value int() rejects ends the scan with an error naming that argument |
| TwoColumnCli.ClipTokensAreSplit | rs04.py:154-159 | the comma test is redundant: the tokens are always value.split(",") |
| TwoColumnCli.ClipEntriesFailIff | rs04.py:161-166 | a clip value fails exactly when one of its tokens is malformed |
| TwoColumnCli.ClipEntriesMerge | rs04.py:161-166 | well-formed tokens are stored left to right into the mapping |
| TwoColumnCli.MergeKeepsOthers | rs04.py:166 | pages no entry mentions keep their earlier value or stay absent |
| TwoColumnCli.MergeLastWins | rs04.py:166 | the last entry for a page gives its header height |
| TwoColumnCli.EntryRoundTrip | rs04.py:164-166 | the text page:height reads back as (page, height) |
| TwoColumnCli.BlankAfterColon | rs04.py:107-166 | the help text's form page: height, with a blank after the colon, reads as (page, height) |
| TwoColumnCli.HelpTextEntryForm | rs04.py:107-166 | the help text's example 1: 100 reads as page 1, height 100 |
| TwoColumnCli.ClipRoundTrip | rs04.py:154-166 | the text p1:h1,p2:h2,... reads back as those entries merged in order |
| TwoColumnCli.DefaultOutputName | rs04.py:131 | an input ending in .pdf gives a default output ending in _converted.pdf, longer than the input, so never the input itself |
| TwoColumnCli.DefaultsWithoutFlags | rs04.py:126-136 | with only an input path the options are divide 297, spacing 20, no clip entries and the derived output |
| TwoColumnCli.ZeroArgumentsFinding | rs04.py:119-123 | with no input path the script as written raises at argv[1] while the corrected reading reports usage; with an input path both agree |
| TwoColumnCli.UnknownFlagFails | rs04.py:173-175 | --foo=bar after a .pdf input ends with exit status 1 and no saved document |
| TwoColumnCli.RunExitStatus | rs04.py:111-200 | the exit status is 0 exactly for help and for a saved document, and 1 without an input path |
| TwoColumnCli.ClipArgument | rs04.py:146-166 | the argument --clip=1:100 adds exactly the entry page 1, height 100 |
| TwoColumnCli.ClipFlagCommandLine | rs04.py:119-166 | a.pdf --clip=1:100 reads as input a.pdf, output a_converted.pdf, divide 297, spacing 20 and the entry 1 → 100 |
| TwoColumnCli.ClipFlagRun | rs04.py:119-200 | a.pdf --clip=1:100 on two pages saves a_converted.pdf with the plan of process for divide 297, spacing 20 and entry 1 → 100: a 100-high header on page 1 only |
| TwoColumnCli.DefaultOutputOfStem | rs04.py:131 | for a name with no dot, name.pdf gets the default output name_converted.pdf |
| TwoColumnCli.DefaultOutputOfShortName | rs04.py:131 | the default output for a.pdf is a_converted.pdf |
| MarginFix.AddRightMarginAndFixHeight | rs02.py:15-36 | one page per source page, in order, drawn from the same page index, width w + margin, height the fixed height |
| MarginFix.PlacedUnscaledAtOrigin | rs02.py:31-36 | the content is drawn at (0, 0) with the source page's own width and height |
| MarginFix.SizesIgnoreSourceHeight | rs02.py:22-29 | the destination sizes do not depend on the source heights |
| MarginFix.VisibleIffAboveFixedHeight | rs02.py:29-36 | a source point keeps its coordinates and is visible on the new page exactly when it lies above the fixed height |
| MarginFix.TallPagesOverflow | rs02.py:29-36 | a page taller than the fixed height is drawn past the bottom of its new page |
| MarginFix.Run | rs02.py:43-58 | fewer than two argv entries is an error; otherwise the document is saved as output.pdf with one page per source page, page i sized (w + 300, 842) and drawing source page i at (0, 0, w, h); a missing file gives FileNotFound and an unreadable one ProcessingFailed |
| MarginFix.SinglePageScenario | rs02.py:15-36 | one 400 × 600 page becomes 700 × 842 with the content at (0, 0)–(400, 600) |

## Findings

| source | as written | input that shows it | evidently intended | confidence | as-written member | corrected member |
|---|---|---|---|---|---|---|
| rs04.py:119-123 | `sys.argv[1]` is compared with `--help` before the argument count is checked, so the usage branch can never run | `argv = ["rs04.py"]`: `IndexError` traceback instead of the usage message | print the usage message and exit with status 1 when no input path is given | high, not executed | TwoColumnCli.ParseCommandLineAsWritten | TwoColumnCli.ParseCommandLine |

Both end with exit status 1; only the message differs. `ZeroArgumentsFinding`
exhibits the difference. `Run` uses the corrected reading.

## Left out

- PyMuPDF calls are not modelled: `fitz.open`, `new_page`, `show_pdf_page` rendering, `draw_line` colour and width, and `save`. A plan records what is drawn where. Of the library's exceptions only a document that cannot be opened is modelled (`Unreadable`, then `ProcessingFailed`); the rectangles it rejects are listed under `TwoColumnCli.Run` below.
- Console output (`print`, the help text) is not modelled, and neither is `sys.exit` as process termination. Outcomes and `Cli.ExitStatus` stand for them.
- The exception handlers at rs04.py:195-200 and rs02.py:53-58 are modelled only as the mapping of a missing file to `FileNotFound` and of every other failure to `ProcessingFailed`.
- Page rectangles are modelled as `(0, 0, w, h)`. Page rotation and a mediabox whose origin is not at (0, 0) are out of scope. Floating-point rounding is replaced by exact `real` arithmetic.
- In `process`, `divide` is not range-checked, and the model does not check it either. The tiling and disjointness lemmas assume `0 ≤ divide ≤ w` and `0 ≤ c ≤ h`. Outside those bounds the model still produces a plan; the script does not get that far (next line).
- TwoColumnCli.Run: returns `Saved` in runs where PyMuPDF raises inside `process`, and the handler at rs04.py:198-200 then exits with status 1. `show_pdf_page` rejects an empty or inverted rectangle. That happens for a clip entry ≤ 0 (for example `--clip=1:0`, header rectangle `(0, 0, w, 0)`), for a header height at or below the page bottom, for `divide ≤ 0` and for `divide ≥ w`. `save` also refuses a document with no pages. The model has no rendering library, so these runs appear as saved plans.
- MarginFix.Run: returns `Saved` for an opened document with no pages, while `new_doc.save` (rs02.py:39) refuses a document without pages, so the handler at rs02.py:56-58 exits with status 1. The model has no rendering library, so that run appears as a saved empty plan.
- PyInt.ParseIntGrammar: accepts digit strings of any length. CPython's `int()` raises `ValueError` by default for a decimal literal of more than 4300 digits (`sys.set_int_max_str_digits`), so for example `--clip=<4301 digits>:100` ends with an uncaught error and exit status 1 in the script (rs04.py:166), while `TwoColumnCli.Run` returns `Saved`; `--divide=` and `--grid_width=` (rs04.py:143, 145) differ the same way. The limit is a configurable interpreter setting, not part of the language's literal grammar.
- PyInt.ParseInt: only ASCII digits and the six ASCII whitespace characters are modelled. Python's `int()` also accepts other Unicode decimal digits and Unicode whitespace.
- The commented-out `--input=` option (rs04.py:169-170) is not modelled, because it is dead code.

=== FILE: cli.dfy ===
/** What both command-line drivers have in common: the ways a run can end and
    the exit status each way produces. */
module Cli {
  import opened Geometry

  /** Why a run ends with exit status 1. */
  datatype ErrorKind =
    | Usage                         // too few arguments, usage message printed
    | MissingArgument               // `sys.argv[1]` indexed past the end (uncaught IndexError)
    | NotPdf                        // input path lacks the `.pdf` suffix
    | UnknownOption(arg: string)    // an argument matching no known flag
    | MalformedValue(arg: string)   // `int()` or tuple unpacking raised while reading a flag (uncaught)
    | FileNotFound                  // the input file does not exist
    | ProcessingFailed              // any other exception while converting

  /** What opening the input path yields: no file, a file the library cannot
      process, or the sizes of its pages in order. */
  datatype Document = Missing | Unreadable | Opened(pages: seq<Size>)

  /** How a run ends: help printed, a failure, or a document saved at `path`
      whose pages are planned as `pages`. */
  datatype Outcome<P> = HelpShown | Failed(kind: ErrorKind) | Saved(path: string, pages: seq<P>)

  /** The process exit status: 0 for help and for success, 1 for every failure. */
  function ExitStatus<P>(o: Outcome<P>): int {
    if o.Failed? then 1 else 0
  }
}

=== FILE: geometry.dfy ===
/** Page geometry in PDF user-space units, origin at the top-left corner and
    y growing downwards, as the scripts' rectangle library uses it. */
module Geometry {

  datatype Point = Point(x: real, y: real)

  /** A rectangle from corner `(x0, y0)` to corner `(x1, y1)`; a point is inside
      when it lies in `[x0, x1) × [y0, y1)`. */
  datatype Rect = Rect(x0: real, y0: real, x1: real, y1: real) {

    function Width(): real {
      x1 - x0
    }

    function Height(): real {
      y1 - y0
    }

    predicate Contains(p: Point) {
      x0 <= p.x < x1 && y0 <= p.y < y1
    }

    /** The same rectangle moved by `(dx, dy)`. */
    function Translate(dx: real, dy: real): (r: Rect)
      ensures r.Width() == Width() && r.Height() == Height()
    {
      Rect(x0 + dx, y0 + dy, x1 + dx, y1 + dy)
    }

    /** Every point of `inner` is a point of this rectangle. */
    predicate Encloses(inner: Rect) {
      x0 <= inner.x0 && inner.x1 <= x1 && y0 <= inner.y0 && inner.y1 <= y1
    }
  }

  /** Two rectangles share no point. */
  predicate Disjoint(a: Rect, b: Rect) {
    a.x1 <= b.x0 || b.x1 <= a.x0 || a.y1 <= b.y0 || b.y1 <= a.y0
  }

  /** The size of a page; the page itself is the rectangle `(0, 0, width, height)`. */
  datatype Size = Size(width: real, height: real) {
    function Bounds(): Rect {
      Rect(0.0, 0.0, width, height)
    }
  }

  /** A straight line drawn on a page. */
  datatype Segment = Segment(from: Point, to: Point)

  /** One drawing of source content into a destination page: the `clip` region
      of source page `pno` is drawn into the destination rectangle `dest`. */
  datatype CopyOp = CopyOp(pno: nat, clip: Rect, dest: Rect) {

    /** Clip and destination have the same size, so nothing is scaled. */
    predicate Unscaled() {
      clip.Width() == dest.Width() && clip.Height() == dest.Height()
    }

    /** Where a source point lands when the copy is unscaled: moved by the
        offset between the two rectangles' top-left corners. */
    function Image(p: Point): Point {
      Point(p.x + dest.x0 - clip.x0, p.y + dest.y0 - clip.y0)
    }
  }
}

=== FILE: margin_fix.dfy ===
/** The height-fix script: every source page becomes a page of fixed height
    with a blank margin added on the right, the original content drawn
    unscaled at the top-left corner. */
module MarginFix {
  import opened Geometry
  import opened Cli

  /** Default width of the added right margin. */
  const DefaultMargin: real := 300.0
  /** Default destination page height (an A4 page's height in points). */
  const DefaultA4Height: real := 842.0
  /** The fixed name the command line saves to. */
  const OutputPath: string := "output.pdf"

  /** The whole of source page `pno` drawn into `dest`. */
  datatype Placement = Placement(pno: nat, dest: Rect)

  /** One destination page: its size and the one drawing on it. */
  datatype MarginPage = MarginPage(size: Size, placement: Placement)

  /** The plan for the whole document: one destination page per source page,
      in order. */
  function AddRightMarginAndFixHeight(
    pages: seq<Size>, margin: real := DefaultMargin, a4Height: real := DefaultA4Height)
    : (plan: seq<MarginPage>)
    ensures |plan| == |pages|
    ensures forall i :: 0 <= i < |pages| ==> plan[i].placement.pno == i
    ensures forall i :: 0 <= i < |pages| ==> plan[i].size.width == pages[i].width + margin
    ensures forall i :: 0 <= i < |pages| ==> plan[i].size.height == a4Height
  {
    seq(|pages|, i requires 0 <= i < |pages| =>
      MarginPage(
        Size(pages[i].width + margin, a4Height),
        Placement(i, Rect(0.0, 0.0, pages[i].width, pages[i].height))))
  }

  /** The content is drawn unscaled at the origin: the destination rectangle
      has the source page's own size and its top-left corner at `(0, 0)`. */
  lemma PlacedUnscaledAtOrigin(pages: seq<Size>, margin: real, a4Height: real, i: nat)
    requires i < |pages|
    ensures var dest := AddRightMarginAndFixHeight(pages, margin, a4Height)[i].placement.dest;
      && dest.x0 == 0.0 && dest.y0 == 0.0
      && dest.Width() == pages[i].width && dest.Height() == pages[i].height
  {
  }

  /** The destination pages do not depend on the source heights at all: two
      documents whose pages have the same widths get the same page sizes. */
  lemma SizesIgnoreSourceHeight(pages: seq<Size>, pages': seq<Size>, margin: real, a4Height: real)
    requires |pages| == |pages'|
    requires forall i :: 0 <= i < |pages| ==> pages[i].width == pages'[i].width
    ensures forall i :: 0 <= i < |pages| ==>
      AddRightMarginAndFixHeight(pages, margin, a4Height)[i].size ==
      AddRightMarginAndFixHeight(pages', margin, a4Height)[i].size
  {
  }

  /** A point of the source page lands at the same coordinates, and with a
      non-negative margin it is visible on the destination page exactly when it
      lies above the fixed height: taller pages lose their bottom part. */
  lemma VisibleIffAboveFixedHeight(pages: seq<Size>, margin: real, a4Height: real, i: nat, p: Point)
    requires i < |pages| && 0.0 <= margin
    requires pages[i].Bounds().Contains(p)
    ensures var page := AddRightMarginAndFixHeight(pages, margin, a4Height)[i];
      && page.placement.dest.Contains(p)
      && (page.size.Bounds().Contains(p) <==> p.y < a4Height)
  {
  }

  /** A source page taller than the fixed height is drawn past the bottom of
      its destination page. */
  lemma TallPagesOverflow(pages: seq<Size>, margin: real, a4Height: real, i: nat)
    requires i < |pages| && pages[i].height > a4Height
    ensures var page := AddRightMarginAndFixHeight(pages, margin, a4Height)[i];
      page.placement.dest.y1 > page.size.height
  {
  }

  /** A full run: at least one argument after the script name, then the
      document the input path opens to, converted with a 300-point margin and
      saved under the fixed name. Extra arguments are ignored. */
  function Run(argv: seq<string>, doc: Document): (r: Outcome<MarginPage>)
    ensures |argv| < 2 ==> r == Failed(Usage)
    ensures r.Saved? <==> |argv| >= 2 && doc.Opened?
    ensures r.Saved? ==> r.path == OutputPath && |r.pages| == |doc.pages|
    ensures r.Saved? ==> forall i :: 0 <= i < |r.pages| ==>
      && r.pages[i].size == Size(doc.pages[i].width + 300.0, 842.0)
      && r.pages[i].placement == Placement(i, Rect(0.0, 0.0, doc.pages[i].width, doc.pages[i].height))
    ensures |argv| >= 2 && doc.Missing? ==> r == Failed(FileNotFound)
    ensures |argv| >= 2 && doc.Unreadable? ==> r == Failed(ProcessingFailed)
  {
    if |argv| < 2 then Failed(Usage)
    else
      match doc
      case Missing => Failed(FileNotFound)
      case Unreadable => Failed(ProcessingFailed)
      case Opened(pages) => Saved(OutputPath, AddRightMarginAndFixHeight(pages, margin := 300.0))
  }

  /** The first end-to-end scenario: one 400 x 600 page becomes one 700 x 842
      page with the content at `(0, 0)`-`(400, 600)`. */
  lemma SinglePageScenario()
    ensures var plan := AddRightMarginAndFixHeight([Size(400.0, 600.0)], 300.0);
      && |plan| == 1
      && plan[0].size == Size(700.0, 842.0)
      && plan[0].placement == Placement(0, Rect(0.0, 0.0, 400.0, 600.0))
  {
  }
}

=== FILE: pyint.dfy ===
/** Python's `int()` applied to a string (the parser the scripts use for every
    numeric option) and to a float (the page-height truncation), and `str()`
    of an integer as its inverse. */
module PyInt {
  import opened Wrappers

  /** The ASCII whitespace `int()` strips around its argument. */
  predicate IsSpace(ch: char) {
    ch == ' ' || ch == '\t' || ch == '\n' || ch == '\r' || ch == '\U{0B}' || ch == '\U{0C}'
  }

  predicate IsDigit(ch: char) {
    '0' <= ch <= '9'
  }

  function DigitValue(ch: char): nat
    requires IsDigit(ch)
  {
    (ch as int - '0' as int) as nat
  }

  function DigitChar(d: nat): (ch: char)
    requires d < 10
    ensures IsDigit(ch) && DigitValue(ch) == d
  {
    ('0' as int + d) as char
  }

  /** `s` with its leading whitespace removed. */
  function StripLeading(s: string): (r: string)
    ensures |r| <= |s|
    ensures forall i :: 0 <= i < |s| - |r| ==> IsSpace(s[i])
    ensures |r| > 0 ==> !IsSpace(r[0])
  {
    if |s| > 0 && IsSpace(s[0]) then StripLeading(s[1..]) else s
  }

  /** `s` with its trailing whitespace removed. */
  function StripTrailing(s: string): (r: string)
    ensures |r| <= |s|
    ensures forall i :: |r| <= i < |s| ==> IsSpace(s[i])
    ensures |r| > 0 ==> !IsSpace(r[|r| - 1])
  {
    if |s| > 0 && IsSpace(s[|s| - 1]) then StripTrailing(s[..|s| - 1]) else s
  }

  function Strip(s: string): string {
    StripTrailing(StripLeading(s))
  }

  /** The body of a decimal literal as `int()` accepts it: ASCII digits, where
      every underscore sits between two digits. */
  predicate IsDigitString(s: string) {
    |s| > 0 && forall i :: 0 <= i < |s| ==> UnderscoreBetweenDigits(s, i)
  }

  /** Position `i` of `s` holds a digit, or an underscore with a digit on
      each side. */
  predicate UnderscoreBetweenDigits(s: string, i: int)
    requires 0 <= i < |s|
  {
    IsDigit(s[i]) || (s[i] == '_' && 0 < i < |s| - 1 && IsDigit(s[i - 1]) && IsDigit(s[i + 1]))
  }

  /** A digit string starts and ends with a digit and holds nothing but
      digits and underscores. */
  lemma DigitStringChars(s: string)
    requires IsDigitString(s)
    ensures IsDigit(s[0]) && IsDigit(s[|s| - 1])
    ensures forall i :: 0 <= i < |s| ==> IsDigit(s[i]) || s[i] == '_'
  {
    assert UnderscoreBetweenDigits(s, 0) && UnderscoreBetweenDigits(s, |s| - 1);
    forall i | 0 <= i < |s| ensures IsDigit(s[i]) || s[i] == '_' {
      assert UnderscoreBetweenDigits(s, i);
    }
  }

  /** The number a string of digits and underscores denotes, underscores
      skipped. */
  function ValueOf(s: string): nat
    requires forall i :: 0 <= i < |s| ==> IsDigit(s[i]) || s[i] == '_'
  {
    if |s| == 0 then 0
    else if IsDigit(s[|s| - 1]) then 10 * ValueOf(s[..|s| - 1]) + DigitValue(s[|s| - 1])
    else ValueOf(s[..|s| - 1])
  }

  /** The unsigned part of a literal: a digit string, or a failure. */
  function ParseDigits(t: string): (r: Option<nat>)
    ensures r.Some? ==> |t| > 0 && IsDigit(t[0])
  {
    if IsDigitString(t) then DigitStringChars(t); Some(ValueOf(t)) else None
  }

  /** A literal with the surrounding whitespace already removed: an optional
      sign followed by a digit string. */
  function ParseLiteral(t: string): (r: Option<int>)
    ensures r.Some? ==> exists i :: 0 <= i < |t| && IsDigit(t[i])
  {
    if |t| > 0 && (t[0] == '+' || t[0] == '-') then
      match ParseDigits(t[1..])
      case None => None
      case Some(n) =>
        assert IsDigit(t[1]);
        var m: int := n;
        Some(if t[0] == '-' then -m else m)
    else
      ParseDigits(t)
  }

  /** Python's `int(s)` for a `str` argument: `None` where Python raises
      `ValueError`. A string without any digit is always rejected. */
  function ParseInt(s: string): (r: Option<int>)
    ensures r.Some? ==> exists i :: 0 <= i < |s| && IsDigit(s[i])
  {
    var t := Strip(s);
    var r := ParseLiteral(t);
    assert r.Some? ==> exists i :: 0 <= i < |s| && IsDigit(s[i]) by {
      if r.Some? {
        var i :| 0 <= i < |t| && IsDigit(t[i]);
        StripTrailingIndex(StripLeading(s), i);
        StripLeadingIndex(s, i);
      }
    }
    r
  }

  /** Stripping keeps the characters it does not remove, in place. */
  lemma StripLeadingIndex(s: string, i: int)
    requires 0 <= i < |StripLeading(s)|
    ensures StripLeading(s)[i] == s[|s| - |StripLeading(s)| + i]
    decreases |s|
  {
    if |s| > 0 && IsSpace(s[0]) {
      StripLeadingIndex(s[1..], i);
    }
  }

  lemma StripTrailingIndex(s: string, i: int)
    requires 0 <= i < |StripTrailing(s)|
    ensures StripTrailing(s)[i] == s[i]
    decreases |s|
  {
    if |s| > 0 && IsSpace(s[|s| - 1]) {
      StripTrailingIndex(s[..|s| - 1], i);
    }
  }

  /** The decimal digits of a natural number, most significant first. */
  function DecimalDigits(n: nat): (s: string)
    ensures |s| > 0
    ensures forall i :: 0 <= i < |s| ==> IsDigit(s[i])
  {
    if n < 10 then [DigitChar(n)] else DecimalDigits(n / 10) + [DigitChar(n % 10)]
  }

  /** Python's `str(n)` for an integer. */
  function FormatInt(n: int): (s: string)
    ensures |s| > 0
    ensures forall i :: 0 <= i < |s| ==> IsDigit(s[i]) || s[i] == '-'
  {
    if n < 0 then "-" + DecimalDigits(-n) else DecimalDigits(n)
  }

  lemma {:induction false} ValueOfDecimalDigits(n: nat)
    ensures ValueOf(DecimalDigits(n)) == n
    decreases n
  {
    if n >= 10 {
      var s := DecimalDigits(n);
      ValueOfDecimalDigits(n / 10);
      assert s[..|s| - 1] == DecimalDigits(n / 10);
    }
  }

  /** A string that starts and ends with a non-space character is its own
      stripped form. */
  lemma StripUnpadded(s: string)
    requires |s| > 0 && !IsSpace(s[0]) && !IsSpace(s[|s| - 1])
    ensures Strip(s) == s
  {
    assert StripLeading(s) == s;
    assert StripTrailing(s) == s;
  }

  lemma ParseDecimalDigits(n: nat)
    ensures ParseDigits(DecimalDigits(n)) == Some(n)
  {
    var s := DecimalDigits(n);
    forall i | 0 <= i < |s| ensures UnderscoreBetweenDigits(s, i) {
    }
    ValueOfDecimalDigits(n);
  }

  /** `int(str(n)) == n`: formatting an integer and parsing it back gives the
      same integer. */
  lemma ParseFormat(n: int)
    ensures ParseInt(FormatInt(n)) == Some(n)
  {
    if n < 0 {
      ParseFormatNegative(n);
    } else {
      var s := DecimalDigits(n);
      ParseUnpadded(s);
      ParseDecimalDigits(n);
    }
  }

  lemma ParseFormatNegative(n: int)
    requires n < 0
    ensures ParseInt(FormatInt(n)) == Some(n)
  {
    var m: nat := -n;
    var d := DecimalDigits(m);
    var t := FormatInt(n);
    FormatNegative(n);
    assert t[0] == '-' && t[|t| - 1] == d[|d| - 1];
    ParseUnpadded(t);
    ParseDecimalDigits(m);
    ParseLiteralSigned('-', d, m);
  }

  lemma FormatNegative(n: int)
    requires n < 0
    ensures FormatInt(n) == ['-'] + DecimalDigits(-n)
  {
  }

  /** Without surrounding whitespace `int()` reads the literal as it is. */
  lemma ParseUnpadded(t: string)
    requires |t| > 0 && !IsSpace(t[0]) && !IsSpace(t[|t| - 1])
    ensures ParseInt(t) == ParseLiteral(t)
  {
    StripUnpadded(t);
  }

  /** Leading whitespace does not change what `int()` returns (so `" 100"`
      parses as 100). */
  lemma {:induction false} ParseIgnoresLeadingSpace(pre: string, s: string)
    requires forall i :: 0 <= i < |pre| ==> IsSpace(pre[i])
    ensures ParseInt(pre + s) == ParseInt(s)
  {
    StripLeadingSpace(pre, s);
  }

  lemma {:induction false} StripLeadingSpace(pre: string, s: string)
    requires forall i :: 0 <= i < |pre| ==> IsSpace(pre[i])
    ensures StripLeading(pre + s) == StripLeading(s)
    decreases |pre|
  {
    if |pre| > 0 {
      assert (pre + s)[0] == pre[0];
      assert (pre + s)[1..] == pre[1..] + s;
      assert IsSpace(pre[0]);
      assert StripLeading(pre + s) == StripLeading(pre[1..] + s);
      StripLeadingSpace(pre[1..], s);
    } else {
      assert pre + s == s;
    }
  }

  /** A string that is all whitespace strips to nothing. */
  lemma AllSpaceStripsLeading(s: string)
    requires forall i :: 0 <= i < |s| ==> IsSpace(s[i])
    ensures StripLeading(s) == []
  {
  }

  /** Stripping leading whitespace works on the front only: text appended
      after a non-blank string is kept as it is. */
  lemma {:induction false} StripLeadingAppend(s: string, t: string)
    requires StripLeading(s) != []
    ensures StripLeading(s + t) == StripLeading(s) + t
    decreases |s|
  {
    assert |s| > 0;
    assert (s + t)[0] == s[0];
    if IsSpace(s[0]) {
      assert (s + t)[1..] == s[1..] + t;
      StripLeadingAppend(s[1..], t);
    }
  }

  lemma {:induction false} StripTrailingSpace(s: string, post: string)
    requires forall i :: 0 <= i < |post| ==> IsSpace(post[i])
    ensures StripTrailing(s + post) == StripTrailing(s)
    decreases |post|
  {
    if |post| > 0 {
      var x := s + post;
      assert x[|x| - 1] == post[|post| - 1];
      assert x[..|x| - 1] == s + post[..|post| - 1];
      StripTrailingSpace(s, post[..|post| - 1]);
    } else {
      assert s + post == s;
    }
  }

  /** Trailing whitespace does not change what `int()` returns. */
  lemma ParseIgnoresTrailingSpace(s: string, post: string)
    requires forall i :: 0 <= i < |post| ==> IsSpace(post[i])
    ensures ParseInt(s + post) == ParseInt(s)
  {
    if StripLeading(s) != [] {
      StripLeadingAppend(s, post);
      StripTrailingSpace(StripLeading(s), post);
    } else {
      var n := |s| - |StripLeading(s)|;
      assert forall i :: 0 <= i < |s| ==> IsSpace(s[i]);
      assert forall i :: 0 <= i < |s + post| ==> IsSpace((s + post)[i]);
      AllSpaceStripsLeading(s + post);
    }
  }

  /** `int()` strips whitespace on both sides: `int(pre + s + post) == int(s)`
      for blank `pre` and `post`. */
  lemma ParseIgnoresSurroundingSpace(pre: string, s: string, post: string)
    requires forall i :: 0 <= i < |pre| ==> IsSpace(pre[i])
    requires forall i :: 0 <= i < |post| ==> IsSpace(post[i])
    ensures ParseInt(pre + s + post) == ParseInt(s)
  {
    assert pre + s + post == pre + (s + post);
    ParseIgnoresLeadingSpace(pre, s + post);
    ParseIgnoresTrailingSpace(s, post);
  }

  /** An explicit sign is accepted: `int("+" + str(n)) == n` and
      `int("-" + str(n)) == -n` for every natural `n`. */
  lemma ParseSignedDigits(sign: char, n: nat)
    requires sign == '+' || sign == '-'
    ensures ParseInt([sign] + DecimalDigits(n)) == Some(if sign == '-' then -(n as int) else n as int)
  {
    var d := DecimalDigits(n);
    var t := [sign] + d;
    assert t[0] == sign && t[|t| - 1] == d[|d| - 1];
    assert IsDigit(d[|d| - 1]);
    ParseUnpadded(t);
    ParseDecimalDigits(n);
    ParseLiteralSigned(sign, d, n);
  }

  lemma ParseLiteralSigned(sign: char, d: string, n: nat)
    requires sign == '+' || sign == '-'
    requires ParseDigits(d) == Some(n)
    ensures ParseLiteral([sign] + d) == Some(if sign == '-' then -(n as int) else n as int)
  {
    assert ([sign] + d)[1..] == d;
  }

  /** Underscores skip in the value: inserting one underscore after the
      first `|a|` characters changes nothing. */
  lemma {:induction false} ValueOfSkipsUnderscore(a: string, b: string)
    requires forall i :: 0 <= i < |a| ==> IsDigit(a[i]) || a[i] == '_'
    requires forall i :: 0 <= i < |b| ==> IsDigit(b[i]) || b[i] == '_'
    ensures forall i :: 0 <= i < |a + "_" + b| ==> IsDigit((a + "_" + b)[i]) || (a + "_" + b)[i] == '_'
    ensures forall i :: 0 <= i < |a + b| ==> IsDigit((a + b)[i]) || (a + b)[i] == '_'
    ensures ValueOf(a + "_" + b) == ValueOf(a + b)
    decreases |b|
  {
    var x, y := a + "_" + b, a + b;
    UnderscoreKeepsDigitChars(a, b);
    if |b| == 0 {
      assert x == a + ['_'] && y == a;
      ValueOfAppend(a, '_');
    } else {
      var b', last := b[..|b| - 1], b[|b| - 1];
      ValueOfSkipsUnderscore(a, b');
      assert x == (a + "_" + b') + [last];
      assert y == (a + b') + [last];
      ValueOfAppend(a + "_" + b', last);
      ValueOfAppend(a + b', last);
    }
  }

  lemma UnderscoreKeepsDigitChars(a: string, b: string)
    requires forall i :: 0 <= i < |a| ==> IsDigit(a[i]) || a[i] == '_'
    requires forall i :: 0 <= i < |b| ==> IsDigit(b[i]) || b[i] == '_'
    ensures forall i :: 0 <= i < |a + "_" + b| ==> IsDigit((a + "_" + b)[i]) || (a + "_" + b)[i] == '_'
    ensures forall i :: 0 <= i < |a + b| ==> IsDigit((a + b)[i]) || (a + b)[i] == '_'
  {
    var x, y := a + "_" + b, a + b;
    forall i | 0 <= i < |x| ensures IsDigit(x[i]) || x[i] == '_' {
      if i < |a| { assert x[i] == a[i]; } else if i > |a| { assert x[i] == b[i - |a| - 1]; }
    }
    forall i | 0 <= i < |y| ensures IsDigit(y[i]) || y[i] == '_' {
      if i < |a| { assert y[i] == a[i]; } else { assert y[i] == b[i - |a|]; }
    }
  }

  /** Reading one more character: a digit shifts the value and adds itself,
      an underscore leaves it as it was. */
  lemma ValueOfAppend(u: string, c: char)
    requires forall i :: 0 <= i < |u| ==> IsDigit(u[i]) || u[i] == '_'
    requires IsDigit(c) || c == '_'
    ensures forall i :: 0 <= i < |u + [c]| ==> IsDigit((u + [c])[i]) || (u + [c])[i] == '_'
    ensures ValueOf(u + [c]) == if IsDigit(c) then 10 * ValueOf(u) + DigitValue(c) else ValueOf(u)
  {
    var x := u + [c];
    forall i | 0 <= i < |x| ensures IsDigit(x[i]) || x[i] == '_' {
      if i < |u| { assert x[i] == u[i]; }
    }
    assert x[..|u|] == u;
  }

  /** A single underscore between two runs of digits is ignored:
      `int("1_000") == int("1000")`. */
  lemma ParseIgnoresUnderscore(a: string, b: string)
    requires |a| > 0 && |b| > 0
    requires forall i :: 0 <= i < |a| ==> IsDigit(a[i])
    requires forall i :: 0 <= i < |b| ==> IsDigit(b[i])
    ensures ParseInt(a + "_" + b) == ParseInt(a + b)
    ensures ParseInt(a + "_" + b).Some?
  {
    var x, y := a + "_" + b, a + b;
    ValueOfSkipsUnderscore(a, b);
    assert x[0] == a[0] && y[0] == a[0];
    assert x[|x| - 1] == b[|b| - 1] && y[|y| - 1] == b[|b| - 1];
    StripUnpadded(x);
    StripUnpadded(y);
    forall i | 0 <= i < |x| ensures UnderscoreBetweenDigits(x, i) {
      if i < |a| {
        assert x[i] == a[i];
      } else if i == |a| {
        assert x[i - 1] == a[|a| - 1] && x[i + 1] == b[0];
      } else {
        assert x[i] == b[i - |a| - 1];
      }
    }
    assert forall i :: 0 <= i < |y| ==> IsDigit(y[i]) by {
      forall i | 0 <= i < |y| ensures IsDigit(y[i]) {
        if i < |a| { assert y[i] == a[i]; } else { assert y[i] == b[i - |a|]; }
      }
    }
    assert IsDigitString(y);
  }


  /** An optional sign followed by a digit string. */
  predicate IsSignedLiteral(t: string) {
    IsDigitString(t) || (|t| > 0 && (t[0] == '+' || t[0] == '-') && IsDigitString(t[1..]))
  }

  /** The number a signed literal denotes. */
  function LiteralValue(t: string): int
    requires IsSignedLiteral(t)
  {
    if IsDigitString(t) then DigitStringChars(t); ValueOf(t)
    else
      DigitStringChars(t[1..]);
      if t[0] == '-' then -(ValueOf(t[1..]) as int) else ValueOf(t[1..])
  }

  /** `s[i..j]` is a signed literal with only whitespace around it. */
  predicate SurroundsLiteral(s: string, i: int, j: int) {
    && 0 <= i <= j <= |s|
    && (forall k :: 0 <= k < i ==> IsSpace(s[k]))
    && (forall k :: j <= k < |s| ==> IsSpace(s[k]))
    && IsSignedLiteral(s[i..j])
  }

  /** The grammar `int()` accepts, both ways: `int(s)` succeeds exactly when
      `s` is a signed literal with whitespace around it, and then its value
      is the literal's, whatever split of the whitespace is chosen. So
      `"1.5"`, `"1a2"`, `""`, `"+"` and `"1 2"` are all rejected. */
  lemma ParseIntGrammar(s: string)
    ensures ParseInt(s).Some? <==> exists i, j :: SurroundsLiteral(s, i, j)
    ensures forall i, j :: SurroundsLiteral(s, i, j) ==> ParseInt(s) == Some(LiteralValue(s[i..j]))
  {
    forall i, j | SurroundsLiteral(s, i, j)
      ensures ParseInt(s) == Some(LiteralValue(s[i..j]))
    {
      ParseSurroundedLiteral(s, i, j);
    }
    if ParseInt(s).Some? {
      AcceptedIsSurrounded(s);
    }
  }

  /** Text `int()` accepts is a signed literal with whitespace around it. */
  lemma AcceptedIsSurrounded(s: string)
    requires ParseInt(s).Some?
    ensures exists i, j :: SurroundsLiteral(s, i, j)
  {
    ParseIntOfStripped(s);
    ParsedIsLiteral(Strip(s));
    LeadingSurrounds(s);
  }

  lemma ParseIntOfStripped(s: string)
    ensures ParseInt(s) == ParseLiteral(Strip(s))
  {
  }

  /** Where the stripped text sits in `s`: after the leading blanks, with
      only blanks after it. */
  lemma {:induction false} LeadingSurrounds(s: string)
    requires IsSignedLiteral(Strip(s))
    ensures SurroundsLiteral(s, |s| - |StripLeading(s)|, |s| - |StripLeading(s)| + |Strip(s)|)
    decreases |s|
  {
    if |s| > 0 && IsSpace(s[0]) {
      LeadingBlankStep(s);
    } else {
      NoLeadingBlank(s);
    }
  }

  lemma {:induction false} LeadingBlankStep(s: string)
    requires |s| > 0 && IsSpace(s[0]) && IsSignedLiteral(Strip(s))
    ensures SurroundsLiteral(s, |s| - |StripLeading(s)|, |s| - |StripLeading(s)| + |Strip(s)|)
    decreases |s|, 0
  {
    var s' := s[1..];
    var l := StripLeading(s');
    assert StripLeading(s) == l;
    LeadingSurrounds(s');
    SurroundsAfterBlank(s, |s'| - |l|, |s'| - |l| + |StripTrailing(l)|);
  }

  lemma NoLeadingBlank(s: string)
    requires !(|s| > 0 && IsSpace(s[0])) && IsSignedLiteral(Strip(s))
    ensures SurroundsLiteral(s, |s| - |StripLeading(s)|, |s| - |StripLeading(s)| + |Strip(s)|)
  {
    assert StripLeading(s) == s;
    TrailingSurrounds(s);
  }

  lemma {:induction false} TrailingSurrounds(s: string)
    requires IsSignedLiteral(StripTrailing(s))
    ensures SurroundsLiteral(s, 0, |StripTrailing(s)|)
    decreases |s|
  {
    if |s| > 0 && IsSpace(s[|s| - 1]) {
      TrailingSurrounds(s[..|s| - 1]);
      SurroundsBeforeBlank(s, 0, |StripTrailing(s)|);
    } else {
      assert s[0..|s|] == s;
    }
  }

  /** A blank in front moves the literal one place on. */
  lemma SurroundsAfterBlank(s: string, i: int, j: int)
    requires |s| > 0 && IsSpace(s[0]) && SurroundsLiteral(s[1..], i, j)
    ensures SurroundsLiteral(s, i + 1, j + 1)
  {
    assert s[1..][i..j] == s[i + 1..j + 1];
    forall k | 0 < k < i + 1 ensures IsSpace(s[k]) {
      assert s[k] == s[1..][k - 1];
    }
    forall k | j + 1 <= k < |s| ensures IsSpace(s[k]) {
      assert s[k] == s[1..][k - 1];
    }
  }

  /** A blank at the end leaves the literal where it is. */
  lemma SurroundsBeforeBlank(s: string, i: int, j: int)
    requires |s| > 0 && IsSpace(s[|s| - 1]) && SurroundsLiteral(s[..|s| - 1], i, j)
    ensures SurroundsLiteral(s, i, j)
  {
    var s' := s[..|s| - 1];
    assert s'[i..j] == s[i..j];
    forall k | 0 <= k < i ensures IsSpace(s[k]) {
      assert s[k] == s'[k];
    }
    forall k | j <= k < |s| - 1 ensures IsSpace(s[k]) {
      assert s[k] == s'[k];
    }
  }

  lemma ParsedIsLiteral(t: string)
    requires ParseLiteral(t).Some?
    ensures IsSignedLiteral(t)
  {
  }

  /** A signed literal with whitespace around it reads as its value. */
  lemma ParseSurroundedLiteral(s: string, i: int, j: int)
    requires SurroundsLiteral(s, i, j)
    ensures ParseInt(s) == Some(LiteralValue(s[i..j]))
  {
    var pre, t, post := s[..i], s[i..j], s[j..];
    assert s == pre + t + post;
    ParseIgnoresSurroundingSpace(pre, t, post);
    LiteralUnpadded(t);
    ParseUnpadded(t);
    LiteralParses(t);
  }

  /** A signed literal starts with a sign or a digit and ends with a digit. */
  lemma LiteralUnpadded(t: string)
    requires IsSignedLiteral(t)
    ensures |t| > 0 && !IsSpace(t[0]) && !IsSpace(t[|t| - 1])
  {
    if IsDigitString(t) {
      DigitStringChars(t);
    } else {
      DigitStringChars(t[1..]);
      assert t[|t| - 1] == t[1..][|t| - 2];
    }
  }

  lemma LiteralParses(t: string)
    requires IsSignedLiteral(t)
    ensures ParseLiteral(t) == Some(LiteralValue(t))
  {
    if t[0] == '+' || t[0] == '-' {
      assert !UnderscoreBetweenDigits(t, 0);
    }
  }

  /** The digit-string grammar read another way: digits and underscores,
      starting and ending with a digit, with no two non-digits in a row. So
      `"1_"`, `"_1"` and `"1__0"` are not digit strings. */
  lemma DigitStringUnderscores(t: string)
    ensures IsDigitString(t) <==>
      && |t| > 0 && IsDigit(t[0]) && IsDigit(t[|t| - 1])
      && (forall i :: 0 <= i < |t| ==> IsDigit(t[i]) || t[i] == '_')
      && (forall i :: 0 <= i < |t| - 1 ==> IsDigit(t[i]) || IsDigit(t[i + 1]))
  {
    if IsDigitString(t) {
      DigitStringChars(t);
      forall i | 0 <= i < |t| - 1 ensures IsDigit(t[i]) || IsDigit(t[i + 1]) {
        assert UnderscoreBetweenDigits(t, i);
      }
    }
    if && |t| > 0 && IsDigit(t[0]) && IsDigit(t[|t| - 1])
       && (forall i :: 0 <= i < |t| ==> IsDigit(t[i]) || t[i] == '_')
       && (forall i :: 0 <= i < |t| - 1 ==> IsDigit(t[i]) || IsDigit(t[i + 1]))
    {
      forall i | 0 <= i < |t| ensures UnderscoreBetweenDigits(t, i) {
        if 0 < i < |t| - 1 {
          assert IsDigit(t[i - 1]) || IsDigit(t[i]);
          assert IsDigit(t[i]) || IsDigit(t[i + 1]);
        }
      }
    }
  }

  /** A character that is no digit, whitespace, sign or underscore anywhere
      in the text makes `int()` fail: `"1.5"` and `"1a2"` are rejected. */
  lemma ParseRejectsForeignCharacter(s: string, k: int)
    requires 0 <= k < |s|
    requires !IsDigit(s[k]) && !IsSpace(s[k]) && s[k] != '+' && s[k] != '-' && s[k] != '_'
    ensures ParseInt(s).None?
  {
    if ParseInt(s).Some? {
      AcceptedIsSurrounded(s);
      var i, j :| SurroundsLiteral(s, i, j);
      SurroundedCharacter(s, i, j, k);
    }
  }

  /** An underscore that ends the text or is not followed by a digit makes
      `int()` fail: `"1_"` and `"1__0"` are rejected. */
  lemma ParseRejectsLooseUnderscore(s: string, k: int)
    requires 0 <= k < |s| && s[k] == '_'
    requires k + 1 == |s| || !IsDigit(s[k + 1])
    ensures ParseInt(s).None?
  {
    if ParseInt(s).Some? {
      AcceptedIsSurrounded(s);
      var i, j :| SurroundsLiteral(s, i, j);
      SurroundedCharacter(s, i, j, k);
    }
  }

  /** The characters of a literal with whitespace around it: digits,
      whitespace, signs and underscores, every underscore followed by a
      digit. */
  lemma SurroundedCharacter(s: string, i: int, j: int, k: int)
    requires SurroundsLiteral(s, i, j) && 0 <= k < |s|
    ensures IsDigit(s[k]) || IsSpace(s[k]) || s[k] == '+' || s[k] == '-' || s[k] == '_'
    ensures s[k] == '_' ==> k + 1 < |s| && IsDigit(s[k + 1])
  {
    if i <= k < j {
      var t := s[i..j];
      assert t[k - i] == s[k];
      LiteralCharacters(t, k - i);
      if s[k] == '_' {
        LiteralUnderscore(t, k - i);
        assert t[k - i + 1] == s[k + 1];
      }
    }
  }

  /** Every character of a signed literal is a digit or an underscore, except
      a sign in front. */
  lemma LiteralCharacters(t: string, k: int)
    requires IsSignedLiteral(t) && 0 <= k < |t|
    ensures IsDigit(t[k]) || t[k] == '_' || (k == 0 && (t[k] == '+' || t[k] == '-'))
  {
    if IsDigitString(t) {
      assert UnderscoreBetweenDigits(t, k);
    } else if k > 0 {
      assert UnderscoreBetweenDigits(t[1..], k - 1);
      assert t[k] == t[1..][k - 1];
    }
  }

  /** An underscore in a signed literal is followed by a digit of it. */
  lemma LiteralUnderscore(t: string, k: int)
    requires IsSignedLiteral(t) && 0 <= k < |t| && t[k] == '_'
    ensures k + 1 < |t| && IsDigit(t[k + 1])
  {
    var m := if IsDigitString(t) then 0 else 1;
    var d := t[m..];
    assert IsDigitString(d);
    LiteralCharacters(t, k);
    assert d[k - m] == t[k];
    assert UnderscoreBetweenDigits(d, k - m);
    assert d[k - m + 1] == t[k + 1];
  }

  /** Leading zeros do not change a value: `int("007") == int("7")`. */
  lemma {:induction false} ValueOfLeadingZero(t: string)
    requires forall i :: 0 <= i < |t| ==> IsDigit(t[i]) || t[i] == '_'
    ensures forall i :: 0 <= i < |"0" + t| ==> IsDigit(("0" + t)[i]) || ("0" + t)[i] == '_'
    ensures ValueOf("0" + t) == ValueOf(t)
    decreases |t|
  {
    var x := "0" + t;
    assert forall i :: 0 <= i < |x| ==> IsDigit(x[i]) || x[i] == '_' by {
      forall i | 0 <= i < |x| ensures IsDigit(x[i]) || x[i] == '_' {
        if i > 0 { assert x[i] == t[i - 1]; }
      }
    }
    if |t| == 0 {
      assert x[..0] == [];
    } else {
      ValueOfLeadingZero(t[..|t| - 1]);
      assert x[..|x| - 1] == "0" + t[..|t| - 1];
      assert x[|x| - 1] == t[|t| - 1];
    }
  }

  /** `k` zero digits. */
  function Zeros(k: nat): (z: string)
    ensures |z| == k && forall i :: 0 <= i < k ==> z[i] == '0'
  {
    if k == 0 then "" else "0" + Zeros(k - 1)
  }

  lemma {:induction false} ValueOfZeros(k: nat, t: string)
    requires forall i :: 0 <= i < |t| ==> IsDigit(t[i]) || t[i] == '_'
    ensures forall i :: 0 <= i < |Zeros(k) + t| ==> IsDigit((Zeros(k) + t)[i]) || (Zeros(k) + t)[i] == '_'
    ensures ValueOf(Zeros(k) + t) == ValueOf(t)
    decreases k
  {
    var x := Zeros(k) + t;
    ZerosKeepDigitChars(k, t);
    if k > 0 {
      ValueOfZeros(k - 1, t);
      ValueOfLeadingZero(Zeros(k - 1) + t);
      OneMoreZero(k - 1, t);
    } else {
      assert x == t;
    }
  }

  lemma OneMoreZero(k: nat, t: string)
    ensures Zeros(k + 1) + t == "0" + (Zeros(k) + t)
  {
  }

  lemma ZerosKeepDigitChars(k: nat, t: string)
    requires forall i :: 0 <= i < |t| ==> IsDigit(t[i]) || t[i] == '_'
    ensures forall i :: 0 <= i < |Zeros(k) + t| ==> IsDigit((Zeros(k) + t)[i]) || (Zeros(k) + t)[i] == '_'
  {
    var x := Zeros(k) + t;
    forall i | 0 <= i < |x| ensures IsDigit(x[i]) || x[i] == '_' {
      if i >= k { assert x[i] == t[i - k]; }
    }
  }

  /** Any number of leading zeros is accepted and ignored:
      `int("007") == 7`. */
  lemma ParseLeadingZeros(k: nat, n: nat)
    ensures ParseInt(Zeros(k) + FormatInt(n)) == Some(n)
  {
    var d := DecimalDigits(n);
    var t := Zeros(k) + d;
    assert FormatInt(n) == d;
    ZerosBeforeDigits(k, d);
    ParseUnpadded(t);
    LiteralParses(t);
    ValueOfZeros(k, d);
    ValueOfDecimalDigits(n);
  }

  lemma ZerosBeforeDigits(k: nat, d: string)
    requires |d| > 0 && forall i :: 0 <= i < |d| ==> IsDigit(d[i])
    ensures var t := Zeros(k) + d;
      && IsDigitString(t) && !IsSpace(t[0]) && !IsSpace(t[|t| - 1])
  {
    var t := Zeros(k) + d;
    forall i | 0 <= i < |t| ensures IsDigit(t[i]) {
      if i >= k { assert t[i] == d[i - k]; }
    }
    forall i | 0 <= i < |t| ensures UnderscoreBetweenDigits(t, i) {
    }
  }

  /** Python's `int(x)` for a float `x`: truncation toward zero. */
  function Trunc(x: real): (n: int)
    ensures 0.0 <= x ==> 0 <= n && n as real <= x < n as real + 1.0
    ensures x < 0.0 ==> n <= 0 && n as real - 1.0 < x <= n as real
  {
    if x >= 0.0 then x.Floor else -((-x).Floor)
  }
}

=== FILE: pyrange.dfy ===
/** Python's `range(start, stop, step)`, the enumeration the splitter uses to
    place its ruled lines. */
module PyRange {

  /** The values `range(start, stop, step)` yields, in order. A zero step makes
      Python raise `ValueError`, so it is excluded here and handled by the
      caller. */
  function Range(start: int, stop: int, step: int): (r: seq<int>)
    requires step != 0
    ensures forall k :: 0 <= k < |r| ==>
      if step > 0 then start <= r[k] < stop else stop < r[k] <= start
    decreases if step > 0 then stop - start else start - stop
  {
    if step > 0 then
      if start < stop then [start] + Range(start + step, stop, step) else []
    else
      if start > stop then [start] + Range(start + step, stop, step) else []
  }

  /** The closed-form length CPython computes for a range object. */
  function RangeLength(start: int, stop: int, step: int): nat
    requires step != 0
  {
    if step > 0 then
      if start < stop then (stop - start - 1) / step + 1 else 0
    else
      if start > stop then (start - stop - 1) / (-step) + 1 else 0
  }

  lemma MulAtLeast(k: int, s: int)
    requires k >= 1 && s > 0
    ensures k * s >= s
  {
    if k > 1 {
      MulAtLeast(k - 1, s);
      assert k * s == (k - 1) * s + s;
    }
  }

  /** Euclidean division is determined by its quotient-remainder equation. */
  lemma DivModUnique(x: int, s: int, q: int, r: int)
    requires s > 0 && 0 <= r < s && x == q * s + r
    ensures x / s == q && x % s == r
  {
    var q', r' := x / s, x % s;
    assert x == q' * s + r';
    if q > q' {
      MulAtLeast(q - q', s);
    } else if q < q' {
      MulAtLeast(q' - q, s);
    }
  }

  lemma DivModShift(x: int, s: int)
    requires s > 0
    ensures (x - s) / s == x / s - 1 && (x - s) % s == x % s
  {
    DivModUnique(x - s, s, x / s - 1, x % s);
  }

  lemma RangeLengthStep(start: int, stop: int, step: int)
    requires step != 0
    requires if step > 0 then start < stop else start > stop
    ensures RangeLength(start, stop, step) == RangeLength(start + step, stop, step) + 1
  {
    var s := if step > 0 then step else -step;
    var d := if step > 0 then stop - start - 1 else start - stop - 1;
    if d >= s {
      DivModShift(d, s);
      assert RangeLength(start + step, stop, step) == (d - s) / s + 1;
    } else {
      DivModUnique(d, s, 0, d);
      assert RangeLength(start + step, stop, step) == 0;
    }
  }

  /** The range has the closed-form length and its k-th element is
      `start + k * step`. */
  lemma {:induction false} RangeShape(start: int, stop: int, step: int)
    requires step != 0
    ensures |Range(start, stop, step)| == RangeLength(start, stop, step)
    ensures forall k :: 0 <= k < |Range(start, stop, step)| ==>
      Range(start, stop, step)[k] == start + k * step
    decreases if step > 0 then stop - start else start - stop
  {
    if (step > 0 && start < stop) || (step < 0 && start > stop) {
      var rest := Range(start + step, stop, step);
      RangeShape(start + step, stop, step);
      RangeLengthStep(start, stop, step);
      assert Range(start, stop, step) == [start] + rest;
      forall k | 0 < k < |rest| + 1
        ensures ([start] + rest)[k] == start + k * step
      {
        assert rest[k - 1] == start + step + (k - 1) * step;
        assert step + (k - 1) * step == k * step;
      }
    }
  }

  /** With a positive step, `y` is yielded exactly when it lies in
      `[start, stop)` and is a whole number of steps past `start`. */
  lemma {:induction false} RangeMembership(start: int, stop: int, step: int, y: int)
    requires step > 0
    ensures y in Range(start, stop, step) <==> start <= y < stop && (y - start) % step == 0
    decreases stop - start
  {
    if start < stop {
      RangeMembership(start + step, stop, step, y);
      assert Range(start, stop, step) == [start] + Range(start + step, stop, step);
      DivModShift(y - start, step);
      if start <= y < start + step {
        DivModUnique(y - start, step, 0, y - start);
      }
    }
  }

  /** With a negative step the range counts down and is empty unless `start`
      lies above `stop`. */
  lemma EmptyWhenNotAbove(start: int, stop: int, step: int)
    requires step < 0 && start <= stop
    ensures Range(start, stop, step) == []
  {
  }
}

=== FILE: strings.dfy ===
/** The handful of Python `str` operations the scripts use: `startswith`,
    `endswith`, `c in s`, `split(c)` and `replace(old, new)`. */
module Strings {

  /** Python's `s.startswith(prefix)`. */
  predicate StartsWith(s: string, prefix: string) {
    |prefix| <= |s| && s[..|prefix|] == prefix
  }

  /** Python's `s.endswith(suffix)`. */
  predicate EndsWith(s: string, suffix: string) {
    |suffix| <= |s| && s[|s| - |suffix|..] == suffix
  }

  /** Position of the first occurrence of `c` in `s`. */
  function IndexOf(s: string, c: char): (k: nat)
    requires c in s
    ensures k < |s| && s[k] == c
    ensures forall i :: 0 <= i < k ==> s[i] != c
  {
    if s[0] == c then 0
    else
      assert s == [s[0]] + s[1..];
      IndexOf(s[1..], c) + 1
  }

  /** The first occurrence is unique: any position holding `c` with no `c`
      before it is the one `IndexOf` finds. */
  lemma IndexOfIsFirst(s: string, c: char, j: nat)
    requires j < |s| && s[j] == c
    requires forall i :: 0 <= i < j ==> s[i] != c
    ensures c in s && IndexOf(s, c) == j
  {
    assert s[j] in s;
  }

  /** Python's `s.split(sep)` for a one-character separator: the pieces
      between consecutive separators, empty pieces included. */
  function Split(s: string, sep: char): (parts: seq<string>)
    ensures |parts| >= 1
    ensures |parts| >= 2 <==> sep in s
    ensures forall i :: 0 <= i < |parts| ==> sep !in parts[i]
    ensures StartsWith(s, parts[0])
    ensures |parts[0]| == |s| || s[|parts[0]|] == sep
    decreases |s|
  {
    if sep in s then
      var k := IndexOf(s, sep);
      [s[..k]] + Split(s[k + 1..], sep)
    else
      [s]
  }

  /** `c` occurs in `s` exactly once, at position `i`. */
  predicate SoleOccurrence(s: string, c: char, i: int) {
    0 <= i < |s| && s[i] == c && c !in s[..i] && c !in s[i + 1..]
  }

  /** `s.split(c)` has exactly two pieces when `c` occurs exactly once, and
      then the pieces are the text before and the text after it. */
  lemma SplitInTwo(s: string, c: char)
    ensures |Split(s, c)| == 2 <==> exists i :: SoleOccurrence(s, c, i)
    ensures forall i :: SoleOccurrence(s, c, i) ==>
      c in s && IndexOf(s, c) == i && Split(s, c) == [s[..i], s[i + 1..]]
  {
    forall i | SoleOccurrence(s, c, i)
      ensures c in s && IndexOf(s, c) == i && Split(s, c) == [s[..i], s[i + 1..]]
    {
      forall j | 0 <= j < i
        ensures s[j] != c
      {
        assert s[j] == s[..i][j];
      }
      IndexOfIsFirst(s, c, i);
    }
    if |Split(s, c)| == 2 {
      var k := IndexOf(s, c);
      assert Split(s, c) == [s[..k]] + Split(s[k + 1..], c);
      assert SoleOccurrence(s, c, k);
    }
  }

  /** Python's `sep.join(parts)`. */
  function Join(parts: seq<string>, sep: char): string
  {
    if |parts| == 0 then ""
    else if |parts| == 1 then parts[0]
    else parts[0] + [sep] + Join(parts[1..], sep)
  }

  /** Joining the pieces of a split with the same separator gives back the
      original string. */
  lemma {:induction false} JoinSplit(s: string, sep: char)
    ensures Join(Split(s, sep), sep) == s
    decreases |s|
  {
    if sep in s {
      var k := IndexOf(s, sep);
      var rest := Split(s[k + 1..], sep);
      JoinSplit(s[k + 1..], sep);
      assert Split(s, sep) == [s[..k]] + rest;
      assert ([s[..k]] + rest)[1..] == rest;
      assert s == s[..k] + [sep] + s[k + 1..];
    }
  }

  /** Splitting a join of separator-free pieces gives back the pieces. */
  lemma {:induction false} SplitJoin(parts: seq<string>, sep: char)
    requires |parts| >= 1
    requires forall i :: 0 <= i < |parts| ==> sep !in parts[i]
    ensures Split(Join(parts, sep), sep) == parts
    decreases |parts|
  {
    if |parts| > 1 {
      SplitJoin(parts[1..], sep);
      SplitAtFirst(parts[0], sep, Join(parts[1..], sep));
      assert parts == [parts[0]] + parts[1..];
    }
  }

  /** The first separator ends the first piece. */
  lemma SplitAtFirst(head: string, sep: char, tail: string)
    requires sep !in head
    ensures Split(head + [sep] + tail, sep) == [head] + Split(tail, sep)
  {
    var s := head + [sep] + tail;
    assert s[..|head|] == head;
    IndexOfIsFirst(s, sep, |head|);
    assert s[|head| + 1..] == tail;
  }

  /** `pat` occurs in `s` starting at position `i`. */
  predicate OccursAt(s: string, pat: string, i: int) {
    0 <= i && i + |pat| <= |s| && s[i..i + |pat|] == pat
  }

  /** Python's `s.replace(pat, rep)`: every occurrence of `pat`, scanning left
      to right without overlaps, is replaced by `rep`. */
  function ReplaceAll(s: string, pat: string, rep: string): (r: string)
    requires |pat| > 0
    ensures |rep| >= |pat| ==> |r| >= |s|
    decreases |s|
  {
    if |s| < |pat| then s
    else if s[..|pat|] == pat then rep + ReplaceAll(s[|pat|..], pat, rep)
    else [s[0]] + ReplaceAll(s[1..], pat, rep)
  }

  /** Where `pat` does not start the string, its first character is kept. */
  lemma ReplaceAllKeepsHead(s: string, pat: string, rep: string)
    requires |pat| > 0 && |s| >= |pat| && !OccursAt(s, pat, 0)
    ensures ReplaceAll(s, pat, rep) == [s[0]] + ReplaceAll(s[1..], pat, rep)
  {
    assert s[..|pat|] == s[0..|pat|];
  }

  /** Occurrences in `s[1..]` are those in `s`, one position earlier. */
  lemma OccursInTail(s: string, pat: string, j: nat)
    requires |s| > 0
    ensures OccursAt(s[1..], pat, j) <==> OccursAt(s, pat, j + 1)
  {
    if j + |pat| <= |s| - 1 {
      assert s[1..][j..j + |pat|] == s[j + 1..j + 1 + |pat|];
    }
  }

  lemma ConsPrefix(s: string, i: nat, rep: string, tail: string)
    requires 0 < i <= |s|
    ensures [s[0]] + (s[1..][..i - 1] + rep + tail) == s[..i] + rep + tail
  {
    assert [s[0]] + s[1..][..i - 1] == s[..i];
  }

  /** A first occurrence at `i > 0` is the first occurrence at `i - 1` of
      `s[1..]`, and `pat` does not start `s`. */
  lemma FirstOccurrenceInTail(s: string, pat: string, i: nat)
    requires 0 < i && OccursAt(s, pat, i)
    requires forall j :: 0 <= j < i ==> !OccursAt(s, pat, j)
    ensures !OccursAt(s, pat, 0)
    ensures OccursAt(s[1..], pat, i - 1)
    ensures forall j :: 0 <= j < i - 1 ==> !OccursAt(s[1..], pat, j)
  {
    OccursInTail(s, pat, i - 1);
    forall j | 0 <= j < i - 1
      ensures !OccursAt(s[1..], pat, j)
    {
      OccursInTail(s, pat, j);
    }
  }

  /** `ReplaceAll` replaces the occurrence of `pat` at `i` and keeps what is
      before it. */
  predicate ReplacedAt(s: string, pat: string, rep: string, i: nat)
    requires |pat| > 0 && i + |pat| <= |s|
  {
    ReplaceAll(s, pat, rep) == s[..i] + rep + ReplaceAll(s[i + |pat|..], pat, rep)
  }

  /** One step of `ReplaceAllFirst`: a kept first character goes in front of
      what the rest of the string gives. */
  lemma ReplaceAllFirstStep(s: string, pat: string, rep: string, i: nat)
    requires |pat| > 0 && 0 < i && i + |pat| <= |s| && !OccursAt(s, pat, 0)
    requires ReplacedAt(s[1..], pat, rep, i - 1)
    ensures ReplacedAt(s, pat, rep, i)
  {
    ReplaceAllKeepsHead(s, pat, rep);
    assert s[1..][i - 1 + |pat|..] == s[i + |pat|..];
    ConsPrefix(s, i, rep, ReplaceAll(s[i + |pat|..], pat, rep));
  }

  /** The first occurrence of `pat` is replaced, and the scan goes on right
      after it: everything before it is kept as it is. */
  lemma {:induction false} ReplaceAllFirst(s: string, pat: string, rep: string, i: nat)
    requires |pat| > 0 && OccursAt(s, pat, i)
    requires forall j :: 0 <= j < i ==> !OccursAt(s, pat, j)
    ensures ReplacedAt(s, pat, rep, i)
    decreases i, 1
  {
    if i == 0 {
      assert s[..|pat|] == s[0..|pat|];
    } else {
      FirstOccurrenceInTail(s, pat, i);
      ReplaceAllFirstLater(s, pat, rep, i);
    }
  }

  /** The inductive case of `ReplaceAllFirst`: the first occurrence is not at
      the start, so the scan keeps `s[0]` and goes on with `s[1..]`. */
  lemma {:induction false} ReplaceAllFirstLater(s: string, pat: string, rep: string, i: nat)
    requires |pat| > 0 && 0 < i && i + |pat| <= |s| && !OccursAt(s, pat, 0)
    requires OccursAt(s[1..], pat, i - 1)
    requires forall j :: 0 <= j < i - 1 ==> !OccursAt(s[1..], pat, j)
    ensures ReplacedAt(s, pat, rep, i)
    decreases i, 0
  {
    var t := s[1..];
    ReplaceAllFirst(t, pat, rep, i - 1);
    ReplaceAllFirstStep(s, pat, rep, i);
  }

  /** A string without any occurrence of `pat` is left unchanged. */
  lemma {:induction false} ReplaceAllAbsent(s: string, pat: string, rep: string)
    requires |pat| > 0
    requires forall i :: !OccursAt(s, pat, i)
    ensures ReplaceAll(s, pat, rep) == s
    decreases |s|
  {
    if |s| >= |pat| {
      assert !OccursAt(s, pat, 0);
      assert s[..|pat|] == s[0..|pat|];
      forall i | 0 <= i
        ensures !OccursAt(s[1..], pat, i)
      {
        assert !OccursAt(s, pat, i + 1);
        if i + |pat| <= |s[1..]| {
          assert s[1..][i..i + |pat|] == s[i + 1..i + 1 + |pat|];
        }
      }
      ReplaceAllAbsent(s[1..], pat, rep);
      assert s == [s[0]] + s[1..];
    }
  }
}

=== FILE: two_column.dfy ===
/** The splitter's page layout: every two-column source page becomes a page of
    twice the width, with an optional full-width header band, the left column
    in place, the right column moved to the right half, and ruled lines in the
    blank margin after each column. */
module TwoColumn {
  import opened Wrappers
  import opened Geometry
  import PyInt
  import PyRange

  /** Width of an A4 page in points. */
  const A4Width: int := 595
  /** Default x-coordinate of the column split: half an A4 width, rounded down. */
  const DefaultDivide: int := A4Width / 2
  /** Default vertical spacing of the ruled lines. */
  const DefaultGridWidth: int := 20
  /** Inset of every ruled line from both edges of its margin band. */
  const GridOffset: real := 10.0

  /** Everything drawn on one destination page. */
  datatype PagePlan = PagePlan(
    size: Size,
    copies: seq<CopyOp>,
    leftRules: seq<Segment>,
    rightRules: seq<Segment>)

  /** Why a run of the layout fails: `range()` raises for a zero step. */
  datatype Fault = ZeroGridStep

  /** Height of the header band of the page with the given 1-based number:
      its entry in the clip mapping, or 0 without one. */
  function HeaderHeight(clips: map<int, int>, pageNumber: int): int {
    if pageNumber in clips then clips[pageNumber] else 0
  }

  /** The header copy: only for pages with an entry, the full-width top band
      drawn at the same place. */
  function HeaderCopies(pno: nat, page: Size, clips: map<int, int>): seq<CopyOp> {
    if pno + 1 in clips then
      var band := Rect(0.0, 0.0, page.width, clips[pno + 1] as real);
      [CopyOp(pno, band, band)]
    else []
  }

  /** The left column below the header, drawn where it was. */
  function LeftColumn(pno: nat, page: Size, divide: int, c: int): CopyOp {
    var r := Rect(0.0, c as real, divide as real, page.height);
    CopyOp(pno, r, r)
  }

  /** The right column below the header, drawn starting at the source page's
      right edge. */
  function RightColumn(pno: nat, page: Size, divide: int, c: int): CopyOp {
    CopyOp(pno,
      Rect(divide as real, c as real, page.width, page.height),
      Rect(page.width, c as real, 2.0 * page.width - divide as real, page.height))
  }

  /** The y-coordinates of the ruled lines: `range(c, int(height), step)`. */
  function RuleRows(page: Size, c: int, step: int): seq<int>
    requires step != 0
  {
    PyRange.Range(c, PyInt.Trunc(page.height), step)
  }

  /** One horizontal segment from `x0` to `x1` per row. */
  function Rules(rows: seq<int>, x0: real, x1: real): seq<Segment> {
    seq(|rows|, k requires 0 <= k < |rows| =>
      Segment(Point(x0, rows[k] as real), Point(x1, rows[k] as real)))
  }

  /** The plan of destination page `pno` (0-based) made from source page `page`. */
  function PlanPage(pno: nat, page: Size, divide: int, step: int, clips: map<int, int>): (p: PagePlan)
    requires step != 0
    ensures p.size == Size(2.0 * page.width, page.height)
    ensures |p.copies| == if pno + 1 in clips then 3 else 2
    ensures forall k :: 0 <= k < |p.copies| ==> p.copies[k].pno == pno
    ensures |p.leftRules| == |p.rightRules|
      == PyRange.RangeLength(HeaderHeight(clips, pno + 1), PyInt.Trunc(page.height), step)
  {
    var c := HeaderHeight(clips, pno + 1);
    PyRange.RangeShape(c, PyInt.Trunc(page.height), step);
    var w := page.width;
    var d := divide as real;
    var rows := RuleRows(page, c, step);
    PagePlan(
      Size(2.0 * w, page.height),
      HeaderCopies(pno, page, clips) + [LeftColumn(pno, page, divide, c), RightColumn(pno, page, divide, c)],
      Rules(rows, d + GridOffset, w - GridOffset),
      Rules(rows, 2.0 * w - d + GridOffset, 2.0 * w - GridOffset))
  }

  /** The splitter over a whole document: one destination page per source page,
      in order, each twice as wide and as tall as its source. A zero line
      spacing fails as soon as there is a page to rule. */
  function Process(pages: seq<Size>, divide: int, step: int, clips: map<int, int>)
    : (r: Result<seq<PagePlan>, Fault>)
    ensures r.Failure? <==> step == 0 && |pages| > 0
    ensures r.Success? ==> |r.value| == |pages|
    ensures r.Success? ==> forall i :: 0 <= i < |pages| ==>
      r.value[i].size == Size(2.0 * pages[i].width, pages[i].height)
    ensures r.Success? ==> forall i, k :: 0 <= i < |pages| && 0 <= k < |r.value[i].copies| ==>
      r.value[i].copies[k].pno == i
    ensures r.Success? && step != 0 ==> forall i :: 0 <= i < |pages| ==>
      r.value[i] == PlanPage(i, pages[i], divide, step, clips)
  {
    if |pages| == 0 then Success([])
    else if step == 0 then Failure(ZeroGridStep)
    else Success(seq(|pages|, i requires 0 <= i < |pages| => PlanPage(i, pages[i], divide, step, clips)))
  }

  /** The header copy exists exactly for pages with an entry in the clip
      mapping; it copies the band `(0, 0, width, entry)` to the same place. The
      two column copies always follow, left before right. */
  lemma HeaderCopyIffEntry(pno: nat, page: Size, divide: int, step: int, clips: map<int, int>)
    requires step != 0
    ensures var p := PlanPage(pno, page, divide, step, clips);
      && (pno + 1 in clips <==> |p.copies| == 3)
      && (pno + 1 !in clips <==> |p.copies| == 2)
      && (pno + 1 in clips ==>
            var band := Rect(0.0, 0.0, page.width, clips[pno + 1] as real);
            p.copies[0] == CopyOp(pno, band, band))
  {
  }

  /** Destination page `pno` counts from 0 but the clip mapping counts pages
      from 1: both columns and the first ruled row start at the entry of page
      `pno + 1`, or at 0 without one. */
  lemma ColumnsStartAtOneBasedEntry(pno: nat, page: Size, divide: int, step: int, clips: map<int, int>)
    requires step != 0
    ensures var plan := PlanPage(pno, page, divide, step, clips);
      var c := (if pno + 1 in clips then clips[pno + 1] else 0) as real;
      && plan.copies[|plan.copies| - 2].clip.y0 == c
      && plan.copies[|plan.copies| - 1].clip.y0 == c
      && plan.copies[|plan.copies| - 1].dest.y0 == c
      && (|plan.leftRules| > 0 ==> plan.leftRules[0].from.y == c)
  {
    RulesLayout(pno, page, divide, step, clips);
  }

  /** The left-column copy is the identity: its clip and destination are both
      `(0, c, divide, height)`, so every point stays where it is. */
  lemma LeftColumnIsIdentity(pno: nat, page: Size, divide: int, step: int, clips: map<int, int>, p: Point)
    requires step != 0
    ensures var plan := PlanPage(pno, page, divide, step, clips);
      var left := plan.copies[|plan.copies| - 2];
      var c := HeaderHeight(clips, pno + 1) as real;
      && left.clip == Rect(0.0, c, divide as real, page.height)
      && left.dest == left.clip
      && left.Image(p) == p
  {
  }

  /** The right-column copy `(divide, c, width, height)` to
      `(width, c, 2 width - divide, height)` is a pure horizontal shift by
      `width - divide`: no scaling, no vertical movement. */
  lemma RightColumnIsShift(pno: nat, page: Size, divide: int, step: int, clips: map<int, int>, p: Point)
    requires step != 0
    ensures var plan := PlanPage(pno, page, divide, step, clips);
      var right := plan.copies[|plan.copies| - 1];
      var c := HeaderHeight(clips, pno + 1) as real;
      && right.clip == Rect(divide as real, c, page.width, page.height)
      && right.Unscaled()
      && right.dest == right.clip.Translate(page.width - divide as real, 0.0)
      && right.Image(p) == Point(p.x + page.width - divide as real, p.y)
  {
  }

  /** The ruled lines: both bands use the same rows; the k-th row is
      `c + k * step`; there are as many rows as `range` yields; every left
      line runs from `divide + 10` to `width - 10` and every right line from
      `2 width - divide + 10` to `2 width - 10`. */
  lemma RulesLayout(pno: nat, page: Size, divide: int, step: int, clips: map<int, int>)
    requires step != 0
    ensures var plan := PlanPage(pno, page, divide, step, clips);
      var c := HeaderHeight(clips, pno + 1);
      var w := page.width;
      var d := divide as real;
      && |plan.leftRules| == |plan.rightRules| == PyRange.RangeLength(c, PyInt.Trunc(page.height), step)
      && forall k :: 0 <= k < |plan.leftRules| ==>
           var y := (c + k * step) as real;
           && plan.leftRules[k] == Segment(Point(d + 10.0, y), Point(w - 10.0, y))
           && plan.rightRules[k] == Segment(Point(2.0 * w - d + 10.0, y), Point(2.0 * w - 10.0, y))
  {
    PyRange.RangeShape(HeaderHeight(clips, pno + 1), PyInt.Trunc(page.height), step);
  }

  /** With a positive spacing a line is drawn at height `y` exactly when `y`
      lies in `[c, int(height))` and is a whole number of spacings below `c`. */
  lemma RuleRowsExactly(pno: nat, page: Size, divide: int, step: int, clips: map<int, int>, y: int)
    requires step > 0
    ensures var plan := PlanPage(pno, page, divide, step, clips);
      var c := HeaderHeight(clips, pno + 1);
      (exists k :: 0 <= k < |plan.leftRules| && plan.leftRules[k].from.y == y as real)
      <==> c <= y < PyInt.Trunc(page.height) && (y - c) % step == 0
  {
    var plan := PlanPage(pno, page, divide, step, clips);
    var c := HeaderHeight(clips, pno + 1);
    var rows := RuleRows(page, c, step);
    PyRange.RangeMembership(c, PyInt.Trunc(page.height), step, y);
    if y in rows {
      var k :| 0 <= k < |rows| && rows[k] == y;
      assert plan.leftRules[k].from.y == y as real;
    }
  }

  /** A negative spacing rules nothing when the header height is not below
      `int(height)`... */
  lemma NegativeStepBelowBottom(pno: nat, page: Size, divide: int, step: int, clips: map<int, int>)
    requires step < 0 && HeaderHeight(clips, pno + 1) <= PyInt.Trunc(page.height)
    ensures PlanPage(pno, page, divide, step, clips).leftRules == []
    ensures PlanPage(pno, page, divide, step, clips).rightRules == []
  {
  }

  /** ...but counts upwards from a header height that lies below the page
      bottom, ruling lines there. */
  lemma NegativeStepAboveBottom(pno: nat, page: Size, divide: int, step: int, clips: map<int, int>)
    requires step < 0 && HeaderHeight(clips, pno + 1) > PyInt.Trunc(page.height)
    ensures |PlanPage(pno, page, divide, step, clips).leftRules| > 0
  {
  }

  /** Every ruled line starts 10 points past the edge of the column before
      its band and ends 10 points short of the edge after it: the left band
      lies between the left column's right edge (`divide`) and the right
      column's left edge (`width`), the right band between the right column's
      right edge and the page's right edge. A line runs forwards, and so lies
      wholly inside its band, exactly when the band is at least 20 points
      wide: `divide + 20 <= width` for the left band, `20 <= divide` for the
      right one. Otherwise `draw_line` is handed a line that runs backwards
      across the column edge. */
  lemma RulesStayInMargins(pno: nat, page: Size, divide: int, step: int, clips: map<int, int>)
    requires step != 0
    ensures var plan := PlanPage(pno, page, divide, step, clips);
      var left := plan.copies[|plan.copies| - 2];
      var right := plan.copies[|plan.copies| - 1];
      && (forall k :: 0 <= k < |plan.leftRules| ==>
            && left.dest.x1 < plan.leftRules[k].from.x && plan.leftRules[k].to.x < right.dest.x0
            && (plan.leftRules[k].from.x <= plan.leftRules[k].to.x <==> divide as real + 20.0 <= page.width))
      && (forall k :: 0 <= k < |plan.rightRules| ==>
            && right.dest.x1 < plan.rightRules[k].from.x && plan.rightRules[k].to.x < plan.size.width
            && (plan.rightRules[k].from.x <= plan.rightRules[k].to.x <==> 20 <= divide))
    ensures var plan := PlanPage(pno, page, divide, step, clips);
      var left := plan.copies[|plan.copies| - 2];
      var right := plan.copies[|plan.copies| - 1];
      20 <= divide && divide as real + 20.0 <= page.width ==>
        && (forall k :: 0 <= k < |plan.leftRules| ==>
              left.dest.x1 < plan.leftRules[k].from.x <= plan.leftRules[k].to.x < right.dest.x0)
        && (forall k :: 0 <= k < |plan.rightRules| ==>
              right.dest.x1 < plan.rightRules[k].from.x <= plan.rightRules[k].to.x < plan.size.width)
  {
    RulesLayout(pno, page, divide, step, clips);
  }

  /** Where the splitter is meant to put a source point: the header band and
      the left column stay in place, the right column moves right by
      `width - divide`. */
  function Relocate(page: Size, divide: int, c: int, p: Point): Point {
    if p.y >= c as real && p.x >= divide as real then Point(p.x + page.width - divide as real, p.y)
    else p
  }

  /** Every copy agrees with `Relocate` on the points it copies. */
  lemma CopiesAgreeWithRelocate(pno: nat, page: Size, divide: int, step: int, clips: map<int, int>, p: Point)
    requires step != 0
    ensures var plan := PlanPage(pno, page, divide, step, clips);
      forall k :: 0 <= k < |plan.copies| && plan.copies[k].clip.Contains(p) ==>
        plan.copies[k].Unscaled() &&
        plan.copies[k].Image(p) == Relocate(page, divide, HeaderHeight(clips, pno + 1), p)
  {
  }

  /** With the split inside the page and the header inside the page, the copies
      tile the source page: each of its points lies in the clip of exactly one
      copy. */
  lemma CopiesTileSourcePage(pno: nat, page: Size, divide: int, step: int, clips: map<int, int>, p: Point)
    requires step != 0
    requires 0.0 <= divide as real <= page.width
    requires 0.0 <= HeaderHeight(clips, pno + 1) as real <= page.height
    requires page.Bounds().Contains(p)
    ensures var plan := PlanPage(pno, page, divide, step, clips);
      && (exists k :: 0 <= k < |plan.copies| && plan.copies[k].clip.Contains(p))
      && (forall k, k' :: 0 <= k < k' < |plan.copies| ==>
            !(plan.copies[k].clip.Contains(p) && plan.copies[k'].clip.Contains(p)))
  {
    var plan := PlanPage(pno, page, divide, step, clips);
    var n := |plan.copies|;
    var c := HeaderHeight(clips, pno + 1) as real;
    if p.y < c {
      assert plan.copies[0].clip.Contains(p);
    } else if p.x < divide as real {
      assert plan.copies[n - 2].clip.Contains(p);
    } else {
      assert plan.copies[n - 1].clip.Contains(p);
    }
  }

  /** With the split inside the page and the header inside the page, the
      destination rectangles lie on the destination page and do not overlap. */
  lemma DestinationsDisjoint(pno: nat, page: Size, divide: int, step: int, clips: map<int, int>)
    requires step != 0
    requires 0.0 <= divide as real <= page.width
    requires 0.0 <= HeaderHeight(clips, pno + 1) as real <= page.height
    ensures var plan := PlanPage(pno, page, divide, step, clips);
      && (forall k :: 0 <= k < |plan.copies| ==> plan.size.Bounds().Encloses(plan.copies[k].dest))
      && (forall k, k' :: 0 <= k < k' < |plan.copies| ==> Disjoint(plan.copies[k].dest, plan.copies[k'].dest))
  {
  }

  /** One A4 page, default split, no header: a 1190 x 842 page with the left
      half at `[0, 297)` and the right half placed at `[595, 893)`. */
  lemma A4PageScenario()
    ensures var r := Process([Size(595.0, 842.0)], DefaultDivide, DefaultGridWidth, map[]);
      && r.Success? && |r.value| == 1
      && r.value[0].size == Size(1190.0, 842.0)
      && r.value[0].copies == [
           CopyOp(0, Rect(0.0, 0.0, 297.0, 842.0), Rect(0.0, 0.0, 297.0, 842.0)),
           CopyOp(0, Rect(297.0, 0.0, 595.0, 842.0), Rect(595.0, 0.0, 893.0, 842.0))]
  {
  }

  /** `--clip=1:100` on a two-page document: only the first page gets a
      100-point header, and only its columns start at y = 100. */
  lemma FirstPageHeaderScenario(first: Size, second: Size)
    ensures var r := Process([first, second], DefaultDivide, DefaultGridWidth, map[1 := 100]);
      && r.Success? && |r.value| == 2
      && |r.value[0].copies| == 3
      && r.value[0].copies[0].clip == Rect(0.0, 0.0, first.width, 100.0)
      && r.value[0].copies[1].clip.y0 == 100.0
      && |r.value[1].copies| == 2
      && r.value[1].copies[0].clip.y0 == 0.0
  {
  }
}

=== FILE: two_column_cli.dfy ===
/** The splitter's command line: `<script> <input.pdf> [--divide=N]
    [--grid_width=N] [--clip=page:height[,page:height...]] [--output=path]
    [--help]`, read strictly left to right, and the run it leads to. */
module TwoColumnCli {
  import opened Wrappers
  import opened Strings
  import PyInt
  import TwoColumn
  import opened Cli
  import opened Geometry

  /** Everything the command line decides for one run. */
  datatype Options = Options(
    input: string,
    output: string,
    divide: int,
    gridWidth: int,
    clips: map<int, int>)

  /** The result of reading the command line: print help, stop with an error,
      or go on with the options read. */
  datatype Parsed = Help | Reject(kind: ErrorKind) | Proceed(options: Options)

  const DivideFlag: string := "--divide="
  const GridWidthFlag: string := "--grid_width="
  const ClipFlag: string := "--clip="
  const OutputFlag: string := "--output="
  const HelpFlag: string := "--help"

  /** The output path used without `--output=`: every `.pdf` in the input path
      replaced by `_converted.pdf`. */
  function DefaultOutput(input: string): string {
    ReplaceAll(input, ".pdf", "_converted.pdf")
  }

  /** The options before any flag is read. */
  function Defaults(input: string): Options {
    Options(input, DefaultOutput(input), TwoColumn.DefaultDivide, TwoColumn.DefaultGridWidth, map[])
  }

  /** A flag's value as `arg.split("=")[1]` takes it: the text between the
      first and the second `=` of the argument. */
  function FlagValue(arg: string, flag: string): (v: string)
    requires |flag| > 0 && flag[|flag| - 1] == '=' && StartsWith(arg, flag)
    ensures '=' !in v
  {
    assert arg[..|flag|][|flag| - 1] == '=';
    Split(arg, '=')[1]
  }

  /** For a flag whose only `=` is its last character, the value is the text
      right after the flag, up to the next `=` or the end of the argument. */
  lemma FlagValueFollowsFlag(arg: string, flag: string)
    requires |flag| > 0 && flag[|flag| - 1] == '=' && StartsWith(arg, flag)
    requires forall i :: 0 <= i < |flag| - 1 ==> flag[i] != '='
    ensures var v := FlagValue(arg, flag);
      StartsWith(arg[|flag|..], v) && (|arg| == |flag| + |v| || arg[|flag| + |v|] == '=')
  {
    assert forall i :: 0 <= i < |flag| ==> arg[i] == flag[i];
    IndexOfIsFirst(arg, '=', |flag| - 1);
    assert Split(arg, '=') == [arg[..|flag| - 1]] + Split(arg[|flag|..], '=');
  }

  /** One `page:height` token of `--clip`: it must split on `:` into exactly
      two parts, each accepted by `int()`. */
  function ParseClipEntry(token: string): (r: Option<(int, int)>)
    ensures r.Some? ==> ':' in token
  {
    var parts := Split(token, ':');
    if |parts| != 2 then None
    else
      var page, height := PyInt.ParseInt(parts[0]), PyInt.ParseInt(parts[1]);
      if page.Some? && height.Some? then Some((page.value, height.value)) else None
  }

  /** A token is accepted exactly when it holds one colon with an integer on
      each side, and then the page and the height are the values of the text
      before and after that colon. */
  lemma ParseClipEntryMeaning(token: string)
    ensures ParseClipEntry(token).Some? <==> exists i :: (SoleOccurrence(token, ':', i)
      && PyInt.ParseInt(token[..i]).Some? && PyInt.ParseInt(token[i + 1..]).Some?)
    ensures forall i :: SoleOccurrence(token, ':', i) && ParseClipEntry(token).Some? ==>
      && PyInt.ParseInt(token[..i]) == Some(ParseClipEntry(token).value.0)
      && PyInt.ParseInt(token[i + 1..]) == Some(ParseClipEntry(token).value.1)
  {
    SplitInTwo(token, ':');
    if |Split(token, ':')| == 2 {
      var i := IndexOf(token, ':');
      assert Split(token, ':') == [token[..i]] + Split(token[i + 1..], ':');
      assert SoleOccurrence(token, ':', i);
    }
  }

  /** The tokens of a `--clip` value: split on `,` when it holds one, the whole
      value otherwise. */
  function ClipTokens(value: string): seq<string> {
    if ',' in value then Split(value, ',') else [value]
  }

  /** Reads the tokens left to right into the mapping; one bad token fails
      the whole value. */
  function ParseClipEntries(tokens: seq<string>, clips: map<int, int>): (r: Option<map<int, int>>)
    ensures r.Some? ==> clips.Keys <= r.value.Keys
    decreases |tokens|
  {
    if |tokens| == 0 then Some(clips)
    else
      match ParseClipEntry(tokens[0])
      case None => None
      case Some((page, height)) => ParseClipEntries(tokens[1..], clips[page := height])
  }

  /** The value of one `--clip=` flag merged into the mapping read so far. */
  function ParseClipValue(value: string, clips: map<int, int>): (r: Option<map<int, int>>)
    ensures r.None? <==> exists k :: 0 <= k < |Split(value, ',')| && ParseClipEntry(Split(value, ',')[k]).None?
    ensures r.Some? ==> clips.Keys <= r.value.Keys
  {
    ClipTokensAreSplit(value);
    ClipEntriesFailIff(ClipTokens(value), clips);
    ParseClipEntries(ClipTokens(value), clips)
  }

  /** Reference meaning of a run of entries: stored one after the other, each
      overwriting an earlier entry for the same page. */
  function Merge(clips: map<int, int>, entries: seq<(int, int)>): map<int, int>
    decreases |entries|
  {
    if |entries| == 0 then clips
    else Merge(clips[entries[0].0 := entries[0].1], entries[1..])
  }

  /** An argument starting with the help flag starts with no other flag. */
  lemma HelpExcludesOtherFlags(arg: string)
    ensures StartsWith(arg, HelpFlag) ==>
      && !StartsWith(arg, DivideFlag) && !StartsWith(arg, GridWidthFlag)
      && !StartsWith(arg, ClipFlag) && !StartsWith(arg, OutputFlag)
  {
    if StartsWith(arg, HelpFlag) {
      assert arg[2] == HelpFlag[2];
    }
  }

  /** The effect of one argument after the input path. */
  function Step(arg: string, opts: Options): (r: Parsed)
    ensures r.Proceed? ==> r.options.input == opts.input
    ensures r.Help? <==> StartsWith(arg, HelpFlag)
    ensures r.Reject? ==> r.kind == UnknownOption(arg) || r.kind == MalformedValue(arg)
  {
    HelpExcludesOtherFlags(arg);
    if StartsWith(arg, DivideFlag) then
      match PyInt.ParseInt(FlagValue(arg, DivideFlag))
      case None => Reject(MalformedValue(arg))
      case Some(n) => Proceed(opts.(divide := n))
    else if StartsWith(arg, GridWidthFlag) then
      match PyInt.ParseInt(FlagValue(arg, GridWidthFlag))
      case None => Reject(MalformedValue(arg))
      case Some(n) => Proceed(opts.(gridWidth := n))
    else if StartsWith(arg, ClipFlag) then
      match ParseClipValue(FlagValue(arg, ClipFlag), opts.clips)
      case None => Reject(MalformedValue(arg))
      case Some(m) => Proceed(opts.(clips := m))
    else if StartsWith(arg, OutputFlag) then
      Proceed(opts.(output := FlagValue(arg, OutputFlag)))
    else if StartsWith(arg, HelpFlag) then
      Help
    else
      Reject(UnknownOption(arg))
  }

  /** Consumes the arguments after the input path strictly left to right; the
      first help flag or error ends the scan. */
  function ParseOptions(args: seq<string>, opts: Options): (r: Parsed)
    ensures r.Proceed? ==> r.options.input == opts.input
    ensures r.Help? ==> exists k :: 0 <= k < |args| && StartsWith(args[k], HelpFlag)
    ensures r.Reject? ==> (r.kind.UnknownOption? || r.kind.MalformedValue?) && r.kind.arg in args
    ensures !r.Proceed? ==> exists k :: (0 <= k < |args| && ParseOptions(args[..k], opts).Proceed?
      && Step(args[k], ParseOptions(args[..k], opts).options) == r)
    decreases |args|
  {
    if |args| == 0 then Proceed(opts)
    else
      match Step(args[0], opts)
      case Proceed(next) =>
        var r := ParseOptions(args[1..], next);
        assert !r.Proceed? ==> exists k :: (0 <= k < |args| && ParseOptions(args[..k], opts).Proceed?
          && Step(args[k], ParseOptions(args[..k], opts).options) == r) by {
          if !r.Proceed? {
            var k :| 0 <= k < |args[1..]| && ParseOptions(args[1..][..k], next).Proceed?
              && Step(args[1..][k], ParseOptions(args[1..][..k], next).options) == r;
            assert args[..k + 1][0] == args[0];
            assert args[..k + 1][1..] == args[1..][..k];
            assert ParseOptions(args[..k + 1], opts) == ParseOptions(args[1..][..k], next);
            assert args[k + 1] == args[1..][k];
          }
        }
        r
      case other =>
        assert args[..0] == [];
        other
  }

  /** Continues a scan that stopped after a prefix of the arguments. */
  function Continue(p: Parsed, rest: seq<string>): Parsed {
    if p.Proceed? then ParseOptions(rest, p.options) else p
  }

  /** The whole command line, `argv[0]` being the script itself. */
  function ParseCommandLine(argv: seq<string>): (r: Parsed)
    ensures |argv| < 2 <==> r == Reject(Usage)
    ensures r.Proceed? ==> |argv| >= 2 && r.options.input == argv[1] && EndsWith(argv[1], ".pdf")
    ensures r.Help? ==> exists k :: 1 <= k < |argv| && StartsWith(argv[k], HelpFlag)
    ensures |argv| >= 2 && argv[1] == HelpFlag ==> r == Help
    ensures |argv| >= 2 && argv[1] != HelpFlag && !EndsWith(argv[1], ".pdf") ==> r == Reject(NotPdf)
    ensures |argv| >= 2 && argv[1] != HelpFlag && EndsWith(argv[1], ".pdf") ==>
      r == ParseOptions(argv[2..], Defaults(argv[1]))
  {
    if |argv| < 2 then Reject(Usage)
    else if argv[1] == HelpFlag then Help
    else if !EndsWith(argv[1], ".pdf") then Reject(NotPdf)
    else
      var r := ParseOptions(argv[2..], Defaults(argv[1]));
      assert r.Help? ==> exists k :: 1 <= k < |argv| && StartsWith(argv[k], HelpFlag) by {
        if r.Help? {
          var k :| 0 <= k < |argv[2..]| && StartsWith(argv[2..][k], HelpFlag);
          assert argv[k + 2] == argv[2..][k];
        }
      }
      r
  }

  /** The command line as the script reads it: `argv[1]` is compared with
      `--help` before the argument count is checked, so a missing input path
      raises instead of reaching the usage message. */
  function ParseCommandLineAsWritten(argv: seq<string>): (r: Parsed)
    ensures r != Reject(Usage)
  {
    if |argv| < 2 then Reject(MissingArgument)
    else if argv[1] == HelpFlag then Help
    else if !EndsWith(argv[1], ".pdf") then Reject(NotPdf)
    else ParseOptions(argv[2..], Defaults(argv[1]))
  }

  /** A full run of the splitter on the document the input path opens to. */
  function Run(argv: seq<string>, doc: Document): (r: Outcome<TwoColumn.PagePlan>)
    ensures r.Saved? ==> doc.Opened? && |r.pages| == |doc.pages|
    ensures r.Saved? ==> |argv| >= 2 && EndsWith(argv[1], ".pdf")
    ensures r.HelpShown? ==> exists k :: 1 <= k < |argv| && StartsWith(argv[k], HelpFlag)
    ensures doc.Missing? && ParseCommandLine(argv).Proceed? ==> r == Failed(FileNotFound)
    ensures r.HelpShown? <==> ParseCommandLine(argv).Help?
    ensures ParseCommandLine(argv).Reject? ==> r == Failed(ParseCommandLine(argv).kind)
    ensures r.Saved? ==> (ParseCommandLine(argv).Proceed? && doc.Opened? &&
      var o := ParseCommandLine(argv).options;
      r.path == o.output && TwoColumn.Process(doc.pages, o.divide, o.gridWidth, o.clips) == Success(r.pages))
    ensures ParseCommandLine(argv).Proceed? && doc.Opened? ==>
      var o := ParseCommandLine(argv).options;
      TwoColumn.Process(doc.pages, o.divide, o.gridWidth, o.clips).Success? ==> r.Saved?
    ensures doc.Unreadable? && ParseCommandLine(argv).Proceed? ==> r == Failed(ProcessingFailed)
    ensures ParseCommandLine(argv).Proceed? && doc.Opened? ==>
      var o := ParseCommandLine(argv).options;
      TwoColumn.Process(doc.pages, o.divide, o.gridWidth, o.clips).Failure? ==> r == Failed(ProcessingFailed)
  {
    match ParseCommandLine(argv)
    case Help => HelpShown
    case Reject(kind) => Failed(kind)
    case Proceed(o) =>
      match doc
      case Missing => Failed(FileNotFound)
      case Unreadable => Failed(ProcessingFailed)
      case Opened(pages) =>
        match TwoColumn.Process(pages, o.divide, o.gridWidth, o.clips)
        case Failure(_) => Failed(ProcessingFailed)
        case Success(plans) => Saved(o.output, plans)
  }

  /** Scanning `a + b` is scanning `a`, then scanning `b` from where `a` left
      off; once `a` ends the scan, `b` is never looked at. */
  lemma {:induction false} ParseOptionsAppend(a: seq<string>, b: seq<string>, opts: Options)
    ensures ParseOptions(a + b, opts) == Continue(ParseOptions(a, opts), b)
    decreases |a|
  {
    if |a| == 0 {
      assert a + b == b;
    } else {
      assert (a + b)[0] == a[0];
      assert (a + b)[1..] == a[1..] + b;
      match Step(a[0], opts)
      case Proceed(next) => ParseOptionsAppend(a[1..], b, next);
      case _ =>
    }
  }

  /** A flag followed by a value without `=` has exactly that value: the
      value a user writes after `--divide=`, `--grid_width=`, `--clip=` or
      `--output=` is the value the script reads. */
  lemma FlagValueOfText(flag: string, v: string)
    requires |flag| > 0 && flag[|flag| - 1] == '='
    requires forall i :: 0 <= i < |flag| - 1 ==> flag[i] != '='
    requires '=' !in v
    ensures StartsWith(flag + v, flag) && FlagValue(flag + v, flag) == v
  {
    var arg := flag + v;
    assert arg[..|flag|] == flag;
    FlagValueFollowsFlag(arg, flag);
    var fv := FlagValue(arg, flag);
    assert arg[|flag|..] == v;
  }

  lemma FormatIntHasNoSeparator(n: int)
    ensures '=' !in PyInt.FormatInt(n) && ':' !in PyInt.FormatInt(n) && ',' !in PyInt.FormatInt(n)
  {
    var s := PyInt.FormatInt(n);
    forall i | 0 <= i < |s| ensures s[i] != '=' && s[i] != ':' && s[i] != ',' {
      assert PyInt.IsDigit(s[i]) || s[i] == '-';
    }
  }

  /** A string that differs from a flag at some position does not start with it. */
  lemma DiffersAt(x: string, flag: string, i: nat)
    requires i < |flag| && i < |x| && x[i] != flag[i]
    ensures !StartsWith(x, flag)
  {
  }

  /** A one-argument scan is one step. */
  lemma ParseSingle(arg: string, opts: Options)
    ensures ParseOptions([arg], opts) ==
      if Step(arg, opts).Proceed? then Proceed(Step(arg, opts).options) else Step(arg, opts)
  {
    assert [arg][1..] == [];
  }

  /** The divide, grid and clip flags differ from each other and from
      `--output=` at their third character. */
  lemma FlagPrefixesDiffer(arg: string)
    ensures StartsWith(arg, GridWidthFlag) ==> !StartsWith(arg, DivideFlag)
    ensures StartsWith(arg, ClipFlag) ==> !StartsWith(arg, DivideFlag) && !StartsWith(arg, GridWidthFlag)
    ensures StartsWith(arg, OutputFlag) ==>
      !StartsWith(arg, DivideFlag) && !StartsWith(arg, GridWidthFlag) && !StartsWith(arg, ClipFlag)
  {
    if |arg| > 2 {
      if StartsWith(arg, GridWidthFlag) {
        assert arg[2] == GridWidthFlag[2];
        DiffersAt(arg, DivideFlag, 2);
      }
      if StartsWith(arg, ClipFlag) {
        assert arg[2] == ClipFlag[2];
        DiffersAt(arg, DivideFlag, 2);
        DiffersAt(arg, GridWidthFlag, 2);
      }
      if StartsWith(arg, OutputFlag) {
        assert arg[2] == OutputFlag[2];
        DiffersAt(arg, DivideFlag, 2);
        DiffersAt(arg, GridWidthFlag, 2);
        DiffersAt(arg, ClipFlag, 2);
      }
    }
  }

  /** A later `--divide=` overrides every earlier one. */
  lemma LaterDivideWins(args: seq<string>, opts: Options, arg: string, n: int)
    requires ParseOptions(args, opts).Proceed?
    requires StartsWith(arg, DivideFlag) && PyInt.ParseInt(FlagValue(arg, DivideFlag)) == Some(n)
    ensures ParseOptions(args + [arg], opts) == Proceed(ParseOptions(args, opts).options.(divide := n))
  {
    ParseOptionsAppend(args, [arg], opts);
    ParseSingle(arg, ParseOptions(args, opts).options);
  }

  /** A later `--grid_width=` overrides every earlier one. */
  lemma LaterGridWidthWins(args: seq<string>, opts: Options, arg: string, n: int)
    requires ParseOptions(args, opts).Proceed?
    requires StartsWith(arg, GridWidthFlag) && PyInt.ParseInt(FlagValue(arg, GridWidthFlag)) == Some(n)
    ensures ParseOptions(args + [arg], opts) == Proceed(ParseOptions(args, opts).options.(gridWidth := n))
  {
    FlagPrefixesDiffer(arg);
    ParseOptionsAppend(args, [arg], opts);
    ParseSingle(arg, ParseOptions(args, opts).options);
  }

  /** A later `--output=` overrides every earlier one and the default. */
  lemma LaterOutputWins(args: seq<string>, opts: Options, arg: string)
    requires ParseOptions(args, opts).Proceed?
    requires StartsWith(arg, OutputFlag)
    ensures ParseOptions(args + [arg], opts)
      == Proceed(ParseOptions(args, opts).options.(output := FlagValue(arg, OutputFlag)))
  {
    FlagPrefixesDiffer(arg);
    ParseOptionsAppend(args, [arg], opts);
    ParseSingle(arg, ParseOptions(args, opts).options);
  }

  /** Every `--clip=` merges into the one mapping built by the flags before it,
      so entries accumulate across repeated flags and a later entry for a page
      overwrites an earlier one. */
  lemma ClipFlagsAccumulate(args: seq<string>, opts: Options, arg: string)
    requires ParseOptions(args, opts).Proceed?
    requires StartsWith(arg, ClipFlag)
    ensures var before := ParseOptions(args, opts).options;
      ParseOptions(args + [arg], opts) ==
        match ParseClipValue(FlagValue(arg, ClipFlag), before.clips)
        case None => Reject(MalformedValue(arg))
        case Some(m) => Proceed(before.(clips := m))
  {
    FlagPrefixesDiffer(arg);
    ParseOptionsAppend(args, [arg], opts);
    ParseSingle(arg, ParseOptions(args, opts).options);
  }

  /** An argument starting with `--help` ends the scan with help, whatever
      follows it, once the arguments before it were accepted. */
  lemma HelpStopsParsing(a: seq<string>, h: string, b: seq<string>, opts: Options)
    requires ParseOptions(a, opts).Proceed?
    requires StartsWith(h, HelpFlag)
    ensures ParseOptions(a + [h] + b, opts) == Help
  {
    var before := ParseOptions(a, opts).options;
    assert Step(h, before) == Help;
    StopsAt(a, h, b, opts);
  }

  /** An argument whose step does not proceed ends the scan there, whatever
      follows it. */
  lemma StopsAt(a: seq<string>, x: string, b: seq<string>, opts: Options)
    requires ParseOptions(a, opts).Proceed?
    requires !Step(x, ParseOptions(a, opts).options).Proceed?
    ensures ParseOptions(a + [x] + b, opts) == Step(x, ParseOptions(a, opts).options)
  {
    ParseOptionsAppend(a + [x], b, opts);
    ParseOptionsAppend(a, [x], opts);
    ParseSingle(x, ParseOptions(a, opts).options);
  }

  /** A `--divide=` value that `int()` rejects ends the scan with an error
      naming the argument, whatever follows it. */
  lemma BadDivideStops(a: seq<string>, x: string, b: seq<string>, opts: Options)
    requires ParseOptions(a, opts).Proceed?
    requires StartsWith(x, DivideFlag) && PyInt.ParseInt(FlagValue(x, DivideFlag)).None?
    ensures ParseOptions(a + [x] + b, opts) == Reject(MalformedValue(x))
  {
    var o := ParseOptions(a, opts).options;
    assert Step(x, o) == Reject(MalformedValue(x));
    StopsAt(a, x, b, opts);
  }

  /** A `--grid_width=` value that `int()` rejects ends the scan with an error
      naming the argument, whatever follows it. */
  lemma BadGridWidthStops(a: seq<string>, x: string, b: seq<string>, opts: Options)
    requires ParseOptions(a, opts).Proceed?
    requires StartsWith(x, GridWidthFlag) && PyInt.ParseInt(FlagValue(x, GridWidthFlag)).None?
    ensures ParseOptions(a + [x] + b, opts) == Reject(MalformedValue(x))
  {
    FlagPrefixesDiffer(x);
    var o := ParseOptions(a, opts).options;
    assert Step(x, o) == Reject(MalformedValue(x));
    StopsAt(a, x, b, opts);
  }

  /** An argument that matches no flag ends the scan with an error naming it. */
  lemma UnknownOptionStops(a: seq<string>, x: string, b: seq<string>, opts: Options)
    requires ParseOptions(a, opts).Proceed?
    requires !StartsWith(x, DivideFlag) && !StartsWith(x, GridWidthFlag) && !StartsWith(x, ClipFlag)
    requires !StartsWith(x, OutputFlag) && !StartsWith(x, HelpFlag)
    ensures ParseOptions(a + [x] + b, opts) == Reject(UnknownOption(x))
  {
    var before := ParseOptions(a, opts).options;
    assert Step(x, before) == Reject(UnknownOption(x));
    StopsAt(a, x, b, opts);
  }

  /** Splitting on `,` only when the value holds one gives the same tokens as
      always splitting. */
  lemma ClipTokensAreSplit(value: string)
    ensures ClipTokens(value) == Split(value, ',')
  {
  }

  /** A `--clip` token list fails exactly when one of its tokens is malformed. */
  lemma {:induction false} ClipEntriesFailIff(tokens: seq<string>, clips: map<int, int>)
    ensures ParseClipEntries(tokens, clips).None? <==>
      exists k :: 0 <= k < |tokens| && ParseClipEntry(tokens[k]).None?
    decreases |tokens|
  {
    if |tokens| > 0 {
      var e := ParseClipEntry(tokens[0]);
      if e.None? {
        assert ParseClipEntries(tokens, clips).None?;
        assert 0 <= 0 < |tokens| && ParseClipEntry(tokens[0]).None?;
      } else {
        var next := clips[e.value.0 := e.value.1];
        var rest := tokens[1..];
        assert ParseClipEntries(tokens, clips) == ParseClipEntries(rest, next);
        ClipEntriesFailIff(rest, next);
        if ParseClipEntries(rest, next).None? {
          var k :| 0 <= k < |rest| && ParseClipEntry(rest[k]).None?;
          assert tokens[k + 1] == rest[k];
        } else {
          forall k | 0 <= k < |tokens|
            ensures ParseClipEntry(tokens[k]).Some?
          {
            if k > 0 {
              assert tokens[k] == rest[k - 1];
            }
          }
        }
      }
    }
  }

  /** Well-formed tokens are stored in order, as `Merge` describes. */
  lemma {:induction false} ClipEntriesMerge(tokens: seq<string>, clips: map<int, int>, entries: seq<(int, int)>)
    requires |entries| == |tokens|
    requires forall k :: 0 <= k < |tokens| ==> ParseClipEntry(tokens[k]) == Some(entries[k])
    ensures ParseClipEntries(tokens, clips) == Some(Merge(clips, entries))
    decreases |tokens|
  {
    if |tokens| > 0 {
      assert ParseClipEntry(tokens[0]) == Some(entries[0]);
      ClipEntriesMerge(tokens[1..], clips[entries[0].0 := entries[0].1], entries[1..]);
    }
  }

  /** Pages no entry mentions keep what they had. */
  lemma {:induction false} MergeKeepsOthers(clips: map<int, int>, entries: seq<(int, int)>, page: int)
    requires forall j :: 0 <= j < |entries| ==> entries[j].0 != page
    ensures page in Merge(clips, entries) <==> page in clips
    ensures page in clips ==> Merge(clips, entries)[page] == clips[page]
    decreases |entries|
  {
    if |entries| > 0 {
      MergeKeepsOthers(clips[entries[0].0 := entries[0].1], entries[1..], page);
    }
  }

  /** The last entry for a page wins. */
  lemma {:induction false} MergeLastWins(clips: map<int, int>, entries: seq<(int, int)>, j: nat)
    requires j < |entries|
    requires forall j' :: j < j' < |entries| ==> entries[j'].0 != entries[j].0
    ensures entries[j].0 in Merge(clips, entries)
    ensures Merge(clips, entries)[entries[j].0] == entries[j].1
    decreases |entries|
  {
    var next := clips[entries[0].0 := entries[0].1];
    if j == 0 {
      MergeKeepsOthers(next, entries[1..], entries[0].0);
    } else {
      MergeLastWins(next, entries[1..], j - 1);
    }
  }

  /** The text of one entry as a user writes it: `page:height`. */
  function EntryText(e: (int, int)): string {
    PyInt.FormatInt(e.0) + ":" + PyInt.FormatInt(e.1)
  }

  /** The text of a `--clip` value listing the given entries. */
  function ClipText(entries: seq<(int, int)>): string {
    Join(seq(|entries|, k requires 0 <= k < |entries| => EntryText(entries[k])), ',')
  }

  lemma EntryRoundTrip(e: (int, int))
    ensures ',' !in EntryText(e)
    ensures ParseClipEntry(EntryText(e)) == Some(e)
  {
    var a, b := PyInt.FormatInt(e.0), PyInt.FormatInt(e.1);
    FormatIntHasNoSeparator(e.0);
    FormatIntHasNoSeparator(e.1);
    assert Join([a, b], ':') == EntryText(e);
    SplitJoin([a, b], ':');
    PyInt.ParseFormat(e.0);
    PyInt.ParseFormat(e.1);
  }

  /** Writing entries as `p1:h1,p2:h2,...` and reading them back merges exactly
      those entries, in order, into the mapping. */
  lemma ClipRoundTrip(entries: seq<(int, int)>, clips: map<int, int>)
    requires |entries| >= 1
    ensures ParseClipValue(ClipText(entries), clips) == Some(Merge(clips, entries))
  {
    var tokens := seq(|entries|, k requires 0 <= k < |entries| => EntryText(entries[k]));
    forall k | 0 <= k < |tokens|
      ensures ',' !in tokens[k] && ParseClipEntry(tokens[k]) == Some(entries[k])
    {
      EntryRoundTrip(entries[k]);
    }
    SplitJoin(tokens, ',');
    ClipTokensAreSplit(ClipText(entries));
    ClipEntriesMerge(tokens, clips, entries);
  }

  /** The entry form the help text shows, `page: height` with a blank after
      the colon, is accepted: `int()` strips the blank. */
  lemma BlankAfterColon(page: int, height: int)
    ensures ParseClipEntry(PyInt.FormatInt(page) + ": " + PyInt.FormatInt(height)) == Some((page, height))
  {
    var a, b := PyInt.FormatInt(page), " " + PyInt.FormatInt(height);
    FormatIntHasNoSeparator(page);
    FormatIntHasNoSeparator(height);
    assert ':' !in b;
    assert Join([a, b], ':') == PyInt.FormatInt(page) + ": " + PyInt.FormatInt(height);
    SplitJoin([a, b], ':');
    PyInt.ParseFormat(page);
    PyInt.ParseFormat(height);
    PyInt.ParseIgnoresLeadingSpace(" ", PyInt.FormatInt(height));
  }

  /** `str(1) == "1"` and `str(100) == "100"`. */
  lemma FormatSmallNumbers()
    ensures PyInt.FormatInt(1) == "1" && PyInt.FormatInt(100) == "100"
  {
    assert PyInt.DigitChar(0) == '0' && PyInt.DigitChar(1) == '1';
    assert PyInt.DecimalDigits(1) == "1";
    assert PyInt.DecimalDigits(10) == PyInt.DecimalDigits(1) + "0";
    assert PyInt.DecimalDigits(100) == PyInt.DecimalDigits(10) + "0";
  }

  /** The `--clip` entry the help text shows as its example. */
  const HelpTextEntry: string := "1: 100"

  lemma HelpEntryDigits()
    ensures HelpTextEntry == PyInt.FormatInt(1) + ": " + PyInt.FormatInt(100)
  {
    FormatSmallNumbers();
  }

  /** The example of the help text, `1: 100`, reads as page 1, height 100. */
  lemma HelpTextEntryForm()
    ensures ParseClipEntry(HelpTextEntry) == Some((1, 100))
  {
    HelpEntryDigits();
    BlankAfterColon(1, 100);
  }

  /** `.pdf` cannot overlap itself: a string that starts and ends with it and
      is longer than it holds two separate copies. */
  lemma PdfDoesNotOverlap(s: string)
    requires StartsWith(s, ".pdf") && EndsWith(s, ".pdf") && |s| > 4
    ensures |s| >= 8
  {
    assert s[|s| - 4] == '.' by {
      assert s[|s| - 4..][0] == s[|s| - 4];
    }
    assert forall j :: 1 <= j < 4 ==> s[j] != '.' by {
      assert forall j :: 1 <= j < 4 ==> s[..4][j] == s[j];
    }
  }

  /** The default output for `input` ends in `_converted.pdf` and is at
      least 10 characters longer than `input`. */
  predicate ConvertedName(input: string) {
    EndsWith(DefaultOutput(input), "_converted.pdf") && |DefaultOutput(input)| >= |input| + 10
  }

  /** A leading `.pdf` is replaced and the rest is converted on its own. */
  lemma ConvertedAfterLeadingPdf(input: string)
    requires |input| > 4 && input[..4] == ".pdf"
    requires ConvertedName(input[4..])
    ensures ConvertedName(input)
  {
    var out, tail := DefaultOutput(input), DefaultOutput(input[4..]);
    assert out == "_converted.pdf" + tail;
    assert out[|out| - 14..] == tail[|tail| - 14..];
  }

  /** A leading character that does not start `.pdf` is kept and the rest is
      converted on its own. */
  lemma ConvertedAfterLeadingChar(input: string)
    requires |input| > 4 && input[..4] != ".pdf"
    requires ConvertedName(input[1..])
    ensures ConvertedName(input)
  {
    var out, tail := DefaultOutput(input), DefaultOutput(input[1..]);
    assert out == [input[0]] + tail;
    assert out[|out| - 14..] == tail[|tail| - 14..];
  }

  /** An input path ending in `.pdf` gives a default output ending in
      `_converted.pdf` and longer than the input, so the default never
      overwrites the input. */
  lemma {:induction false} DefaultOutputName(input: string)
    requires EndsWith(input, ".pdf")
    ensures EndsWith(DefaultOutput(input), "_converted.pdf")
    ensures |DefaultOutput(input)| >= |input| + 10
    ensures DefaultOutput(input) != input
    decreases |input|
  {
    if |input| == 4 {
      assert input == ".pdf";
      assert DefaultOutput(input) == "_converted.pdf" + DefaultOutput([]);
    } else if input[..4] == ".pdf" {
      PdfDoesNotOverlap(input);
      var rest := input[4..];
      assert rest[|rest| - 4..] == input[|input| - 4..];
      DefaultOutputName(rest);
      ConvertedAfterLeadingPdf(input);
    } else {
      var rest := input[1..];
      assert rest[|rest| - 4..] == input[|input| - 4..];
      DefaultOutputName(rest);
      ConvertedAfterLeadingChar(input);
    }
  }

  /** Without flags the options are the defaults: divide 297, ruled-line
      spacing 20, no clip entries, and the derived output path. */
  lemma DefaultsWithoutFlags(script: string, input: string)
    requires EndsWith(input, ".pdf")
    ensures ParseCommandLine([script, input]) == Proceed(Defaults(input))
    ensures Defaults(input).divide == 297 && Defaults(input).gridWidth == 20
    ensures Defaults(input).clips == map[]
  {
    assert [script, input][2..] == [];
  }

  /** The zero-argument path: as written the script raises on `argv[1]`; the
      corrected reading reports usage. With an input path the two agree. */
  lemma ZeroArgumentsFinding(script: string, argv: seq<string>)
    ensures ParseCommandLineAsWritten([script]) == Reject(MissingArgument)
    ensures ParseCommandLine([script]) == Reject(Usage)
    ensures |argv| >= 2 ==> ParseCommandLineAsWritten(argv) == ParseCommandLine(argv)
  {
  }

  /** An unrecognised flag after a `.pdf` input ends the run with exit status 1
      and no saved document. */
  lemma UnknownFlagFails(script: string, input: string, doc: Document)
    requires EndsWith(input, ".pdf")
    ensures var r := Run([script, input, "--foo=bar"], doc);
      r == Failed(UnknownOption("--foo=bar")) && ExitStatus(r) == 1
  {
    DefaultsWithoutFlags(script, input);
    assert [script, input, "--foo=bar"][2..] == [] + ["--foo=bar"] + [];
    var x := "--foo=bar";
    DiffersAt(x, DivideFlag, 2);
    DiffersAt(x, GridWidthFlag, 2);
    DiffersAt(x, ClipFlag, 2);
    DiffersAt(x, OutputFlag, 2);
    DiffersAt(x, HelpFlag, 2);
    UnknownOptionStops([], x, [], Defaults(input));
  }

  /** The exit status of a run is 0 exactly when help is shown or the document
      is saved: with no input path, with a bad argument, with a missing or
      unreadable file and with a zero line spacing it is 1. */
  lemma RunExitStatus(argv: seq<string>, doc: Document)
    ensures var p := ParseCommandLine(argv);
      ExitStatus(Run(argv, doc)) == 0 <==>
        (|| p.Help?
         || (&& p.Proceed? && doc.Opened?
             && TwoColumn.Process(doc.pages, p.options.divide, p.options.gridWidth, p.options.clips).Success?))
    ensures |argv| < 2 ==> ExitStatus(Run(argv, doc)) == 1
    ensures |argv| >= 2 && argv[1] == HelpFlag ==> ExitStatus(Run(argv, doc)) == 0
  {
  }

  /** `1:100` reads as the single entry page 1, height 100. */
  lemma ClipOneHundred()
    ensures ParseClipValue("1:100", map[]) == Some(map[1 := 100])
  {
    FormatSmallNumbers();
    assert EntryText((1, 100)) == "1:100";
    assert ClipText([(1, 100)]) == "1:100";
    ClipRoundTrip([(1, 100)], map[]);
  }

  /** For a name with no dot before its `.pdf` ending, the default output
      swaps that ending for `_converted.pdf`: `a.pdf` gives `a_converted.pdf`. */
  lemma DefaultOutputOfStem(stem: string)
    requires '.' !in stem
    ensures DefaultOutput(stem + ".pdf") == stem + "_converted.pdf"
  {
    var s := stem + ".pdf";
    assert s[|stem|..|stem| + 4] == ".pdf";
    forall j | 0 <= j < |stem|
      ensures !OccursAt(s, ".pdf", j)
    {
      assert s[j] == stem[j];
    }
    ReplaceAllFirst(s, ".pdf", "_converted.pdf", |stem|);
    assert s[..|stem|] == stem && s[|stem| + 4..] == "";
  }

  /** The default output for `a.pdf` is `a_converted.pdf`. */
  lemma DefaultOutputOfShortName()
    ensures DefaultOutput("a.pdf") == "a_converted.pdf"
  {
    DefaultOutputOfStem("a");
    assert "a" + ".pdf" == "a.pdf";
    assert "a" + "_converted.pdf" == "a_converted.pdf";
  }

  /** The single argument `--clip=1:100` adds the entry page 1, height 100. */
  lemma ClipArgument(o: Options)
    requires o.clips == map[]
    ensures ParseOptions(["--clip=1:100"], o) == Proceed(o.(clips := map[1 := 100]))
  {
    var arg := "--clip=1:100";
    assert arg == ClipFlag + "1:100";
    FlagValueOfText(ClipFlag, "1:100");
    ClipOneHundred();
    FlagPrefixesDiffer(arg);
    assert Step(arg, o) == Proceed(o.(clips := map[1 := 100]));
    ParseSingle(arg, o);
  }

  /** `a.pdf --clip=1:100` reads as the defaults for `a.pdf` with the single
      clip entry page 1, height 100. */
  lemma ClipFlagCommandLine(script: string)
    ensures ParseCommandLine([script, "a.pdf", "--clip=1:100"])
      == Proceed(Options("a.pdf", "a_converted.pdf", 297, 20, map[1 := 100]))
  {
    var argv := [script, "a.pdf", "--clip=1:100"];
    assert argv[1] == "a.pdf" && argv[1] != HelpFlag;
    assert EndsWith(argv[1], ".pdf");
    assert argv[2..] == ["--clip=1:100"];
    ClipArgument(Defaults("a.pdf"));
    DefaultOutputOfShortName();
  }

  /** End to end: `a.pdf --clip=1:100` on a two-page document saves
      `a_converted.pdf`, laid out with the default split and spacing and a
      100-point header on the first page only. */
  lemma ClipFlagRun(script: string, first: Size, second: Size)
    ensures Run([script, "a.pdf", "--clip=1:100"], Opened([first, second])) ==
      Saved("a_converted.pdf", TwoColumn.Process([first, second], 297, 20, map[1 := 100]).value)
    ensures var r := Run([script, "a.pdf", "--clip=1:100"], Opened([first, second]));
      && r.Saved? && |r.pages| == 2
      && r.pages[0].copies[0].clip == Rect(0.0, 0.0, first.width, 100.0)
      && r.pages[0].copies[1].clip.y0 == 100.0
      && |r.pages[1].copies| == 2
  {
    ClipFlagCommandLine(script);
    TwoColumn.FirstPageHeaderScenario(first, second);
  }
}

=== FILE: wrappers.dfy ===
/** Option and Result, used for the places where the scripts either produce a
    value or raise an exception. */
module Wrappers {

  /** A value that may be absent: Python's `None` versus a present value. */
  datatype Option<+T> = None | Some(value: T)

  /** A computation that either succeeds with a value or fails with an error. */
  datatype Result<+T, +E> = Success(value: T) | Failure(error: E)
}
